=== FILE: README.md ===
# MemoryCacheAI memory orchestration, modelled in Dafny

MemoryCacheAI is a Go web service that gives chat agents two kinds of memory.

- **Short-term memory** is the session transcript. It is kept as JSON in Upstash Redis under `session:<id>` for 24 hours. Each session id is also added to the set `user_sessions:<userId>`.
- **Long-term memory** is one embedding per saved message. It is kept in the Upstash Vector index, with metadata (owner, content, timestamp, 30-day ttl, session, role).

Recall embeds a query and asks the index for the owner's nearest memories above a similarity threshold. Cleanup runs in two ways: a daily sweep of expired memories, and per-user or per-session deletion. Cleanup tasks are delivered back to the service by the QStash dispatcher, through a webhook.

This project models the service's core as pure Dafny functions and a few loop methods. The modules follow the Go packages.

- `Common`: results, errors, decoded JSON values, and the trace of remote calls an operation issues.
- `Config`: loading and validating the environment; the expected embedding dimension.
- `Embedding`: provider selection, the dimension each client reports, request shaping, response handling, and the switchable client.
- `SessionStore`: the Redis adapter over a keyspace `map<string, Stored>`. It covers strings with a TTL and sets, and a SADD on a string key fails.
- `VectorStore`: the vector adapter over an index `map<id, Entry>`. It covers upsert metadata, threshold filtering, the dimension cache, owner deletion and the expiry sweep.
- `Tasks`: the QStash adapter, which builds the cleanup task payloads and reads the dispatcher's reply.
- `Memory`: the orchestrator from services/memory.go.
- `Webhook`: the cleanup callback and the two scheduling endpoints.

Remote services are not executed. Each remote call is given its outcome as a parameter:

- a `bool` for a command that either reaches the store or fails;
- a set of ids or keys whose delete fails, for the loops;
- a `Result` holding the decoded reply (matches, embeddings, dimension) for a read.

The clock (`now`), the generated message id and the vectors returned by the providers are parameters too. Operations that change a store return the new state, the calls they issued in order, and their outcome. Reads return their outcome, and the request builders of the embedding and dispatcher adapters return the request they send with its outcome. The round-trip methods, which chain a scheduling step and a delivery, return the state and the response only.

## Model

| member | source | states |
|---|---|---|
| Common.Trunc | clients/vector.go:176-177 | Go's float-to-int64 conversion truncates toward zero: the result lies within one of the input, on the zero side. |
| Config.GetEnv | config/config.go:90-95 | A variable that is set and non-empty wins; an unset or empty one gives the default. |
| Config.Check | config/config.go:67-87 | Start-up passes exactly when the configuration is Valid. A missing Redis URL or token is reported first. An unknown provider tag is rejected. A missing key is reported for the provider in use. |
| Config.LoadConfig | config/config.go:40-88 | The service starts exactly when the configuration read from the environment is Valid. |
| Config.LoadConfigDefaults | config/config.go:56-64 | With nothing set, the provider is jina, the OpenAI model is text-embedding-3-small, and QStash is the public endpoint. |
| Config.EmbeddingDimensions | config/config.go:98-116 | jina gives 1024. openai with the large model gives 3072; any other openai model gives 1536. Every other tag falls back to 1024. |
| Embedding.NewOpenAIClient | clients/embedding.go:256-270 | The client's model is the configured one, or text-embedding-3-small when that is empty; it is never empty. |
| Embedding.NewEmbeddingClient | clients/embedding.go:98-111 | OpenAI is chosen exactly when the lower-cased provider is "openai"; every other value, including "", selects Jina. |
| Embedding.Dimensions | clients/embedding.go:276-288 | Jina reports 1024; OpenAI reports 3072 for the large model and 1536 for every other model. |
| Embedding.SingleRequest | clients/embedding.go:303-315 | An OpenAI request carries a bare string exactly when there is one text, and an array otherwise; it names the client's model and the float encoding. A Jina request is normalized and asks for float embeddings. Either way the texts are those given. |
| Embedding.BatchRequest | clients/embedding.go:363-367 | The batch path always sends an array with the texts given; the OpenAI request names the client's model and the float encoding, and a Jina request is normalized and asks for floats. |
| Embedding.GenerateEmbeddings | clients/embedding.go:150-200 | An empty text list fails before any request. An empty response fails with NoEmbeddings. Otherwise the result is the first vector of the response. |
| Embedding.GenerateEmbedding | clients/embedding.go:142-148 | One text goes out as a one-element request (a scalar for OpenAI); the result is the first vector returned. |
| Embedding.GenerateBatchEmbeddings | clients/embedding.go:202-252 | Returns one vector per response item, in response order; an empty response is an empty success. |
| Embedding.EmptyResponseDiffers | clients/embedding.go:194-196 | For the same empty response, the single path fails while the batch path succeeds with no vectors. |
| Embedding.NewUnified | clients/embedding.go:114-120 | The wrapper holds the configured client, and its tag names that client's provider. |
| Embedding.SwitchProvider | clients/embedding.go:432-443 | Only the exact tags "jina" and "openai" are accepted; a switch keeps the tag and the client consistent. Any other tag is UnsupportedProvider. |
| Embedding.SwitchChangesDimensions | clients/embedding.go:432-443 | Switching from Jina to OpenAI changes the reported dimension, so vectors stored before the switch no longer fit. |
| Embedding.ConfigDimensionsAgree | config/config.go:98-116 | For the two tags start-up accepts, the configured dimension equals the selected client's dimension. |
| Embedding.MixedCaseProviderDisagrees | clients/embedding.go:99-103 | With the tag "OpenAI", selection picks OpenAI but the dimension table says 1024; such a configuration is not Valid. |
| SessionStore.SessionKeyInjective | clients/redis.go:86 | Distinct session ids give distinct record keys. |
| SessionStore.KeysDisjoint | clients/redis.go:102 | A record key never equals a per-user set key. |
| SessionStore.AddMember | clients/redis.go:103-108 | SADD adds exactly the new id, keeps the set duplicate-free, and grows it by at most one. |
| SessionStore.SaveSession | clients/redis.go:85-115 | SETEX writes the record for 86400 s whenever it succeeds, even if a later command fails. Success requires all three commands to succeed and the owner key not to hold a string. On success the owner's set gains the id and has a 86400 s expiry. No other key changes, and the calls are SETEX, SADD, EXPIRE in that order. |
| SessionStore.SaveSessionKeepsWellKeyed | clients/redis.go:85-115 | Saving keeps every record under the key of its own session id. |
| SessionStore.GetSession | clients/redis.go:117-142 | Succeeds exactly on a readable stored record and returns it. An absent key is SessionNotFound; a non-string value is InvalidSessionFormat. |
| SessionStore.IdsFromReply | clients/redis.go:154-171 | A nil or non-list reply gives no ids. A list gives one id per item, in order, with "" for an item that is not a string. |
| SessionStore.GetUserSessions | clients/redis.go:144-172 | Succeeds unless the link fails or the key holds a string. It lists the set's members, stale ids included. |
| SessionStore.DeleteSession | clients/redis.go:174-185 | Removes exactly the record key on success, and changes nothing on failure. |
| SessionStore.DeleteSessionKeepsMapping | clients/redis.go:174-185 | Deleting a record leaves every per-user set as it was. |
| SessionStore.UpdateSessionActivity | clients/redis.go:187-199 | A missing or unreadable record is an error with no change. Otherwise only lastActivity changes in the record, and it becomes `now`. Only the record key and the owner's set key can change, and success needs the read and all three writes. |
| SessionStore.AddMessageToSession | clients/redis.go:201-211 | The stored transcript gains exactly the new message at its end; owner, context and creation time are kept. It succeeds exactly when the read and all three writes succeed, and only the record key and the owner's set key can change. |
| SessionStore.MergeContext | clients/redis.go:219-225 | Keys given in the update take the new value; every other key keeps the old one. A null context counts as empty. |
| SessionStore.SetSessionContext | clients/redis.go:213-230 | The record's context becomes the merge of the old context and the update. The messages, owner and creation time are kept. It succeeds exactly when the read and all three writes succeed, and only the record key and the owner's set key can change. |
| SessionStore.SetContextThenGet | clients/redis.go:213-230 | After a successful context update, a read returns the new value for each key set and the old value for each key not set. |
| VectorStore.UpsertMetadata | clients/vector.go:99-109 | The stored metadata always has user_id, content, timestamp and ttl. Caller-supplied keys override those base values. |
| VectorStore.UpsertMemory | clients/vector.go:98-123 | On success the id holds the entry's vector and metadata; on failure the index is unchanged. |
| VectorStore.EffectiveLimit | clients/vector.go:126-128 | A non-positive limit becomes 10; a positive one is kept. |
| VectorStore.ToResult | clients/vector.go:159-178 | A result keeps the score and the metadata, with "id" set to the match id. Its content is the metadata content if that is a string, else "". Its timestamp is the numeric metadata timestamp truncated to whole seconds, else absent. Its own ID field stays empty. |
| VectorStore.FilterFrom | clients/vector.go:151-182 | Every result scores at least the threshold, and there are no more results than matches. |
| VectorStore.KeptFromIncreasing | clients/vector.go:152-157 | The positions the threshold keeps lie within the reply and strictly increase. |
| VectorStore.KeptFromExactly | clients/vector.go:154-157 | A position is kept exactly when its score is at least the threshold. |
| VectorStore.FilterFollowsKept | clients/vector.go:151-182 | Result j is the shaped match at the j-th kept position, and there are as many results as kept positions. |
| VectorStore.FilterIsOrderedSelection | clients/vector.go:151-182 | The results are exactly the matches scoring at least the threshold, each shaped, in the index's order. |
| VectorStore.FilterKeepsIdsDistinct | clients/vector.go:164-168 | When the match ids are distinct, the result ids are distinct too. |
| VectorStore.QueryMemories | clients/vector.go:125-186 | Issues one query, filtered to the owner, with the effective limit. On success it returns the threshold selection of the reply. |
| VectorStore.DeleteMemory | clients/vector.go:188-199 | Success removes the id and nothing else; deleting an absent id is not an error. |
| VectorStore.DeleteMemoryIdempotent | clients/vector.go:188-199 | Deleting the same id again succeeds and changes nothing. |
| VectorStore.GetDimensions | clients/vector.go:300-326 | A positive cache answers without a request. Otherwise a positive reported dimension is returned and cached. A missing or zero dimension is an error and is not cached. |
| VectorStore.DimensionsCached | clients/vector.go:301-304 | Once a dimension is cached, later calls return it without contacting the index. |
| VectorStore.FirstFailing | clients/vector.go:230-234 | Gives the position of the first match whose delete fails, or the length of the list if none fails. |
| VectorStore.DeleteUserMemories | clients/vector.go:201-237 | Queries up to 1000 of the owner's memories with a probe vector of the known or configured dimension. It removes the matches up to the first failing delete, and succeeds exactly when none fails. |
| VectorStore.DeleteExpiredMemories | clients/vector.go:239-283 | Queries up to 10000 memories of every owner. It removes exactly the expired ones whose delete succeeds, skips failures, and succeeds whenever the query does. |
| VectorStore.SweepRemovesExactlyExpired | clients/vector.go:268-280 | A returned memory is removed exactly when it has expired (now past timestamp plus ttl) and its delete succeeds. |
| Tasks.Outcome | clients/qstash.go:89-91 | A reply gives an id only for a 2xx status with a decodable body; a non-2xx status is an upstream error. |
| Tasks.PublishCleanupTask | clients/qstash.go:96-123 | The publish carries the task, the URL and the delay, with 3 retries; it succeeds exactly on a 2xx decodable reply. |
| Tasks.ScheduleCleanupTask | clients/qstash.go:125-157 | The schedule body is exactly an expiry sweep stamped `now`, with no user id and no ttl. It runs on the given cron toward the given URL, with 3 retries. |
| Tasks.PublishDelayedMemoryCleanup | clients/qstash.go:159-168 | Sends an owner-cleanup task for the user, delayed by the given seconds; the delay is also recorded as the task's ttl. |
| Tasks.PublishSessionCleanup | clients/qstash.go:170-179 | A session-cleanup task carries the session id in its user id field. |
| Memory.NewEntryMetadata | services/memory.go:72-83 | A saved memory's metadata has exactly six keys: owner, content, time, a 30-day ttl, session and role. |
| Memory.Commit | services/memory.go:65-90 | The part after the session write. An embedding failure writes no vector. Success needs a vector and a successful upsert, after which the message id holds it. |
| Memory.Appended | services/memory.go:57-59 | The transcript gains exactly the new message; only lastActivity also changes. |
| Memory.SaveMemory | services/memory.go:31-91 | The written session is the stored one, or a fresh one, with the message appended. The keyspace afterwards is exactly what that session write leaves: the record under a fresh 86400 s TTL, the session id added to the owner's set, and no other key changed. A failed session write embeds nothing and writes no vector. After a successful write, the outcome and the index are those of the commit step. |
| Memory.SaveAfterFailedReadStartsFresh | services/memory.go:44-55 | Any failed read starts a fresh session: empty history, the request's ids, both times `now`. |
| Memory.SaveCallOrder | services/memory.go:44-88 | A successful save issues GET, SETEX, SADD, EXPIRE, the embedding call, then the vector upsert. |
| Memory.SessionOnlyKeepsMessage | services/memory.go:61-88 | When embedding or upsert fails, the message stays in the session and the owner's set lists it (no rollback). The index is unchanged. |
| Memory.SaveKeepsWellKeyed | services/memory.go:57-63 | A save keeps every record under its own session id. |
| Memory.SaveLandsInRequestedSession | services/memory.go:44-63 | In a well-keyed store the message lands, last, in the requested session. |
| Memory.EffectiveMinScore | services/memory.go:110-113 | A non-positive threshold becomes 0.5; a positive one is kept. |
| Memory.QueryMemory | services/memory.go:94-129 | Embeds first; a failed embedding queries nothing. The query uses the owner filter and the defaulted limit and threshold. The total equals the number of results, and every result clears the threshold. |
| Memory.SaveThenQuery | services/memory.go:94-129 | After a committed save, a query whose reply includes the stored entry at or above the threshold returns the saved content under the message id. |
| Memory.ResultsOf | services/memory.go:258-263 | The helpers return the query's result list and error unchanged, dropping the total. |
| Memory.GetRecentMemories | services/memory.go:244-264 | Queries "recent conversation" for 20 results unless a positive limit is given. It succeeds exactly when the embedding and the query do, and returns just the matches scoring at least 0.1, in index order. |
| Memory.SearchMemoriesByKeyword | services/memory.go:267-281 | Queries the keyword at the defaulted limit. It succeeds exactly when the embedding and the query do, and returns just the matches scoring at least 0.6, in index order. |
| Memory.DeleteMemory | services/memory.go:307-343 | Deletes only when the ownership query lists the id; otherwise it fails with no change. It never touches sessions. |
| Memory.DeleteMemoryMissesLowScores | services/memory.go:312-319 | An owned memory scoring 0.3 is reported as not owned and stays in the index (see Findings). |
| Memory.DeleteMemoryAnyScore | services/memory.go:312-316 | The corrected delete only ever removes the requested id, and never touches sessions. |
| Memory.DeleteMemoryAnyScoreFindsOwned | services/memory.go:312-335 | With the corrected threshold, an owned memory returned at any non-negative score is deleted. |
| Memory.GetSession | services/memory.go:132-145 | Returns the record as read, before the refresh. A failed refresh does not fail the read; a successful refresh sets lastActivity to `now`. |
| Memory.DeleteSession | services/memory.go:153-171 | With deleteMemories set, the record must be readable first. No memory is deleted either way; only the record key can change. |
| Memory.CleanupUserMemories | services/memory.go:199-218 | A failing vector step deletes no session and issues no Redis command. Otherwise every Redis command comes after every vector call: SMEMBERS of the owner's set, then one DEL per listed session. On success the owner's listed sessions are deleted, skipping failing DELs. The owner's set is kept, and if the index returned all the owner's memories, none is left. |
| Memory.DeleteListedSessions | services/memory.go:211-215 | One DEL per listed session in list order; exactly the listed sessions whose DEL succeeds are removed. |
| Memory.CleanupExpiredMemories | services/memory.go:194-196 | The sweep issues no Redis command, changes only the index, and removes exactly the swept ids. |
| Memory.WithContext | services/memory.go:225-228 | An id passes through; an error is wrapped with the operation name. |
| Memory.ScheduleCleanup | services/memory.go:221-231 | The daily sweep is scheduled on "0 2 * * *" toward the callback, with the expiry-sweep body stamped `now`. |
| Memory.ScheduleDelayedUserCleanup | services/memory.go:234-241 | The owner cleanup is published toward the callback with the given delay; its body names the user, is stamped `now`, and records the delay as its ttl. |
| Webhook.Status | handlers/webhook.go:27-88 | Bad requests are 400, failures 500, everything else 200. |
| Webhook.HandleCleanupWebhook | handlers/webhook.go:23-89 | These are bad requests with no effect and no call: an unbindable body, an unknown type, or a user or session task without an id. The sweep changes only the index, and a failed listing changes nothing. A session task deletes only that record with one DEL. A user task removes the owner's memories up to the first failing delete; a failing vector step touches no session, and otherwise the session deletes come after every vector call. Success echoes the task type and timestamp. |
| Webhook.PublishThenDeliverSessionCleanup | handlers/webhook.go:61-75 | A published session cleanup, once delivered, deletes exactly that session's record and no memory. |
| Webhook.PublishThenDeliverUserCleanup | handlers/webhook.go:45-59 | An owner cleanup requested through the schedule-user-cleanup endpoint, once delivered and completed, leaves none of the owner's memories the index listed, and deletes exactly the owner's listed sessions whose DEL succeeds. |
| Webhook.ScheduleThenDeliverExpireAll | handlers/webhook.go:34-43 | The daily sweep scheduled through the endpoint, once delivered, completes exactly when the index listing succeeds. It leaves the Redis keyspace unchanged and removes exactly the swept memories. |
| Webhook.ScheduleCleanup | handlers/webhook.go:92-120 | A missing callback is a bad request and schedules nothing. Otherwise it schedules the daily sweep and echoes the schedule id. |
| Webhook.EffectiveDelay | handlers/webhook.go:139-142 | A non-positive delay becomes 3600 s; a positive one is kept. |
| Webhook.ScheduleUserCleanup | handlers/webhook.go:123-159 | A missing callback or user id is a bad request. Otherwise it publishes an owner cleanup for that user, stamped `now`, with the effective delay as both delay and ttl, and echoes the message id. |

## Behaviour worth knowing

- CleanupUserMemories (services/memory.go:199-218) deletes each listed session record but never the `user_sessions:<userId>` set. `Memory.CleanupUserMemories` proves the set is kept as it was.
- SaveSession (clients/redis.go:85-115) issues SETEX, SADD and EXPIRE as three separate commands. When SADD or EXPIRE fails, the record written by SETEX stays (`SessionStore.SaveSession`).
- The service's GetSession (services/memory.go:132-145) returns the record as it was read, with the previous lastActivity. The refresh of the stored copy afterwards is best-effort (`Memory.GetSession`).
- The vector adapter (clients/vector.go:159-178) never fills a result's own ID field. The memory id travels in the result's metadata under "id" (`VectorStore.ToResult`).
- SaveMemory (services/memory.go:44-56) starts a fresh session whenever the read fails, including on a transport error. An existing transcript can then be overwritten by one holding only the new message (`Memory.SaveAfterFailedReadStartsFresh`).

## Left out

- HTTP transport, JSON encoding and decoding, and authentication headers. Each remote reply is an input, already decoded.
- Request logging and the printed warnings.
- The ranking the vector index performs. The order of the matches is an input, and the threshold filter preserves it.
- The clock and uuid generation. `now` and the message id are parameters.
- handlers/memory.go and main.go, the HTTP routing around the service, are not part of this model. Neither are the static info endpoints GetWebhookInfo and GetEmbeddingInfo.
- GetMemoryStats and VectorStore.GetStats: they only return the index's info payload, which the model does not decode beyond the dimension.
- Redis TTLs are recorded with each stored key, but their expiry is not simulated: a key never disappears because its TTL ran out.
- TestWebhook: it echoes its payload and headers and touches no state.
- The round trips Webhook.PublishThenDeliverSessionCleanup and Webhook.PublishThenDeliverUserCleanup deliver the task body whatever the dispatcher answered to the publish; whether a refused publish is ever delivered is the dispatcher's behaviour, which is not modelled.
- ValidateWebhook, CancelSchedule, GetSchedules and GetMessages: they log, or forward a request, without touching the state modelled here.
- Concurrency between requests. Each operation is modelled as one sequence of remote calls.
- int64 overflow, and time.Time's nanoseconds. Times are whole Unix seconds.
- Floating-point rounding. Scores, timestamps and vectors are `real`.
- The embedding client's ToLower maps ASCII letters only; Go's Unicode case folding is not modelled.
- VectorStore.GetDimensions: the reported dimension is modelled as a natural number, so a negative value in the index's info is not modelled.
- main.go builds two service instances, one behind the memory routes and one behind the webhook, each with its own vector client and dimension cache. The model threads a single cached dimension (`Stores.dims`) through both.
- LoadConfig first reads a `.env` file into the environment and only logs a failure to find it. The model takes the environment after that step as its `env` map.
- Webhook.ScheduleCleanup: only the callback URL's presence is checked. Gin's other binding failures are folded into a body that does not bind.

## Findings

| source | as written | input that shows it | evidently intended | confidence | as-written member | corrected member |
|---|---|---|---|---|---|---|
| services/memory.go:312-319 | DeleteMemory asks QueryMemory for threshold 0.0 ("regardless of score"). QueryMemory replaces every non-positive threshold with 0.5, so the ownership check drops owned memories scoring below 0.5. | An owned memory whose match against "verify memory ownership" scores 0.3: the delete fails as not owned, and the memory stays. | The ownership query should keep every returned match of the owner, at any non-negative score. | not executed | Memory.DeleteMemoryMissesLowScores | Memory.DeleteMemoryAnyScoreFindsOwned |

=== FILE: common.dfy ===
/** Vocabulary shared by every adapter of the memory service: optional values,
    failure-compatible results, the error taxonomy, decoded JSON values and the
    remote calls an operation issues. */
module Common {

  datatype Option<+T> = None | Some(value: T) {

    /** The carried value, or `default` for None (a Go nil map reads as empty). */
    function GetOr(default: T): T {
      match this
      case Some(v) => v
      case None => default
    }
  }

  /** The error conditions the adapters and the service report. */
  datatype Error =
    | SessionNotFound                       // GET found no value under the session key
    | InvalidSessionFormat                  // GET returned something other than a string
    | Undecodable(what: string)             // a JSON body that does not decode
    | WrongType(key: string)                // a Redis command applied to a key of another type
    | Upstream(what: string)                // transport failure or non-2xx status of a remote call
    | NoTexts                               // an embedding call with an empty text list
    | NoEmbeddings                          // an embedding response with an empty data list
    | DimensionsUnknown                     // the vector store reported no usable dimension
    | MemoryNotOwned                        // the memory id is not among the owner's results
    | UnsupportedProvider(name: string)     // SwitchProvider with an unknown provider tag
    | Context(what: string, cause: Error)   // an error wrapped with the failing operation's name

  /** Success with a value, or an error. */
  datatype Result<+T> = Ok(value: T) | Err(error: Error)

  /** A decoded JSON value as it comes back inside an `interface{}`: strings,
      numbers (always float64 after decoding) and everything else. */
  datatype Value = Str(s: string) | Num(x: real) | Other

  /** A JSON object of metadata or session context. */
  type Metadata = map<string, Value>

  /** Go's int64(f) conversion of a float64: truncation toward zero. */
  function Trunc(x: real): (n: int)
    ensures 0.0 <= x ==> n as real <= x < n as real + 1.0
    ensures x < 0.0 ==> n as real - 1.0 < x <= n as real
  {
    if x >= 0.0 then x.Floor else -((-x).Floor)
  }

  /** One request sent to a remote service. The Redis commands carry their key;
      the vector query carries the query vector's length, its topK and its filter. */
  datatype Call =
    | KvGet(key: string)
    | KvSetEx(key: string, ttl: int)
    | KvSAdd(key: string, member: string)
    | KvExpire(key: string, ttl: int)
    | KvDel(key: string)
    | KvSMembers(key: string)
    | EmbedTexts(texts: seq<string>)
    | VecUpsert(id: string)
    | VecQuery(vectorLength: int, topK: int, filter: Option<string>)
    | VecDelete(id: string)
    | VecInfo

  /** A Redis command. */
  predicate IsKv(c: Call) {
    c.KvGet? || c.KvSetEx? || c.KvSAdd? || c.KvExpire? || c.KvDel? || c.KvSMembers?
  }

  /** A trace of Redis commands only. */
  predicate AllKv(calls: seq<Call>) {
    forall i :: 0 <= i < |calls| ==> IsKv(calls[i])
  }

  /** A trace without any Redis command. */
  predicate NoKv(calls: seq<Call>) {
    forall i :: 0 <= i < |calls| ==> !IsKv(calls[i])
  }

  /** True when the trace holds a call to the embedding provider. */
  predicate Embeds(calls: seq<Call>) {
    exists i :: 0 <= i < |calls| && calls[i].EmbedTexts?
  }

  /** True when the trace holds a vector-store query. */
  predicate QueriesVectors(calls: seq<Call>) {
    exists i :: 0 <= i < |calls| && calls[i].VecQuery?
  }

  /** True when the trace holds a write to the vector store. */
  predicate WritesVectors(calls: seq<Call>) {
    exists i :: 0 <= i < |calls| && (calls[i].VecUpsert? || calls[i].VecDelete?)
  }
}

=== FILE: config.dfy ===
/** Configuration loading (config/config.go): environment lookup with
    defaults, the start-up validation that the Go code enforces with
    log.Fatal, and the provider/model to dimension table. */
module Config {

  import opened Common

  /** The process environment, as variable name to value. */
  type Env = map<string, string>

  datatype Config = Config(
    port: string,
    ginMode: string,
    redisUrl: string,
    redisToken: string,
    vectorUrl: string,
    vectorToken: string,
    qstashUrl: string,
    qstashToken: string,
    embeddingProvider: string,
    jinaApiKey: string,
    openAIApiKey: string,
    openAIEmbeddingModel: string)

  const DefaultProvider := "jina"
  const DefaultOpenAIModel := "text-embedding-3-small"
  const LargeOpenAIModel := "text-embedding-3-large"
  const DefaultQStashUrl := "https://qstash.upstash.io"

  /** The value of `key`, unless it is unset or empty, in which case `default`. */
  function GetEnv(env: Env, key: string, default: string): (r: string)
    ensures key in env && env[key] != "" ==> r == env[key]
    ensures key !in env || env[key] == "" ==> r == default
    ensures r == "" ==> default == ""
  {
    if key in env && env[key] != "" then env[key] else default
  }

  /** The configuration read from the environment, before validation. */
  function FromEnv(env: Env): Config {
    Config(
      port := GetEnv(env, "PORT", "8080"),
      ginMode := GetEnv(env, "GIN_MODE", "debug"),
      redisUrl := GetEnv(env, "UPSTASH_REDIS_URL", ""),
      redisToken := GetEnv(env, "UPSTASH_REDIS_TOKEN", ""),
      vectorUrl := GetEnv(env, "UPSTASH_VECTOR_URL", ""),
      vectorToken := GetEnv(env, "UPSTASH_VECTOR_TOKEN", ""),
      qstashUrl := GetEnv(env, "QSTASH_URL", DefaultQStashUrl),
      qstashToken := GetEnv(env, "QSTASH_TOKEN", ""),
      embeddingProvider := GetEnv(env, "EMBEDDING_PROVIDER", DefaultProvider),
      jinaApiKey := GetEnv(env, "JINA_API_KEY", ""),
      openAIApiKey := GetEnv(env, "OPENAI_API_KEY", ""),
      openAIEmbeddingModel := GetEnv(env, "OPENAI_EMBEDDING_MODEL", DefaultOpenAIModel))
  }

  /** Why start-up stops: the first failing check, in the order the Go code runs them. */
  datatype ConfigError =
    | RedisConfigMissing
    | VectorConfigMissing
    | JinaKeyMissing
    | OpenAIKeyMissing
    | InvalidProvider

  /** A configuration the service can start with: both Upstash stores are
      configured, and the provider is exactly "jina" or "openai" with its key. */
  predicate Valid(c: Config) {
    && c.redisUrl != "" && c.redisToken != ""
    && c.vectorUrl != "" && c.vectorToken != ""
    && ((c.embeddingProvider == "jina" && c.jinaApiKey != "")
        || (c.embeddingProvider == "openai" && c.openAIApiKey != ""))
  }

  /** The start-up checks; None when the service starts. */
  function Check(c: Config): (r: Option<ConfigError>)
    ensures r.None? <==> Valid(c)
    ensures r == Some(RedisConfigMissing) <==> c.redisUrl == "" || c.redisToken == ""
    ensures r == Some(InvalidProvider) ==> c.embeddingProvider != "jina" && c.embeddingProvider != "openai"
    ensures r == Some(JinaKeyMissing) ==> c.embeddingProvider == "jina"
    ensures r == Some(OpenAIKeyMissing) ==> c.embeddingProvider == "openai"
  {
    if c.redisUrl == "" || c.redisToken == "" then Some(RedisConfigMissing)
    else if c.vectorUrl == "" || c.vectorToken == "" then Some(VectorConfigMissing)
    else if c.embeddingProvider == "jina" then
      (if c.jinaApiKey == "" then Some(JinaKeyMissing) else None)
    else if c.embeddingProvider == "openai" then
      (if c.openAIApiKey == "" then Some(OpenAIKeyMissing) else None)
    else Some(InvalidProvider)
  }

  /** LoadConfig: the configuration, or the reason the process exits. */
  datatype Loaded = Loaded(config: Config) | Fatal(reason: ConfigError)

  function LoadConfig(env: Env): (r: Loaded)
    ensures r.Loaded? ==> Valid(r.config)
    ensures r.Loaded? <==> Valid(FromEnv(env))
  {
    var c := FromEnv(env);
    match Check(c)
    case None => Loaded(c)
    case Some(e) => Fatal(e)
  }

  /** With no provider, model or QStash URL in the environment, the defaults
      are Jina, text-embedding-3-small and the public QStash endpoint. */
  lemma LoadConfigDefaults(env: Env)
    requires "EMBEDDING_PROVIDER" !in env
    requires "OPENAI_EMBEDDING_MODEL" !in env
    requires "QSTASH_URL" !in env
    ensures FromEnv(env).embeddingProvider == "jina"
    ensures FromEnv(env).openAIEmbeddingModel == "text-embedding-3-small"
    ensures FromEnv(env).qstashUrl == "https://qstash.upstash.io"
  {
  }

  /** The expected embedding dimension for the configured provider and model. */
  function EmbeddingDimensions(c: Config): (d: int)
    ensures c.embeddingProvider == "jina" ==> d == 1024
    ensures c.embeddingProvider == "openai" && c.openAIEmbeddingModel == LargeOpenAIModel ==> d == 3072
    ensures c.embeddingProvider == "openai" && c.openAIEmbeddingModel != LargeOpenAIModel ==> d == 1536
    ensures c.embeddingProvider != "openai" ==> d == 1024
  {
    match c.embeddingProvider
    case "jina" => 1024
    case "openai" =>
      (match c.openAIEmbeddingModel
       case "text-embedding-3-small" => 1536
       case "text-embedding-3-large" => 3072
       case "text-embedding-ada-002" => 1536
       case _ => 1536)
    case _ => 1024
  }
}

=== FILE: embedding.dfy ===
/** The embedding provider adapter (clients/embedding.go): choosing the
    provider, the dimension each one reports, how a request is shaped, how a
    response becomes vectors, and the switchable wrapper client. The vectors
    themselves come from the remote API and are inputs here. */
module Embedding {

  import opened Common
  import Config

  /** An embedding, as an opaque sequence of numbers. */
  type Vector = seq<real>

  datatype Provider = Jina | OpenAI

  /** The provider tag GetProvider returns. */
  function ProviderName(p: Provider): string {
    match p
    case Jina => "jina"
    case OpenAI => "openai"
  }

  /** A concrete client; the OpenAI one remembers its model name. */
  datatype Client = JinaClient | OpenAIClient(model: string)

  function ProviderOf(c: Client): Provider {
    match c
    case JinaClient => Jina
    case OpenAIClient(_) => OpenAI
  }

  /** Go's strings.ToLower, on the ASCII letters. */
  function LowerChar(ch: char): char {
    if 'A' <= ch <= 'Z' then (ch as int + 32) as char else ch
  }

  function ToLower(s: string): string {
    seq(|s|, i requires 0 <= i < |s| => LowerChar(s[i]))
  }

  /** NewOpenAIClient: the configured model, or text-embedding-3-small when empty. */
  function NewOpenAIClient(cfg: Config.Config): (c: Client)
    ensures c.OpenAIClient? && c.model != ""
    ensures cfg.openAIEmbeddingModel != "" ==> c.model == cfg.openAIEmbeddingModel
  {
    OpenAIClient(if cfg.openAIEmbeddingModel == "" then Config.DefaultOpenAIModel
                 else cfg.openAIEmbeddingModel)
  }

  /** NewEmbeddingClient: OpenAI when the lower-cased provider is "openai",
      Jina for every other value, the empty one included. */
  function NewEmbeddingClient(cfg: Config.Config): (c: Client)
    ensures ProviderOf(c) == OpenAI <==> ToLower(cfg.embeddingProvider) == "openai"
    ensures ProviderOf(c) == Jina <==> ToLower(cfg.embeddingProvider) != "openai"
  {
    if ToLower(cfg.embeddingProvider) == "openai" then NewOpenAIClient(cfg) else JinaClient
  }

  /** GetDimensions of a concrete client. */
  function Dimensions(c: Client): (d: int)
    ensures c.JinaClient? ==> d == 1024
    ensures c.OpenAIClient? && c.model == Config.LargeOpenAIModel ==> d == 3072
    ensures c.OpenAIClient? && c.model != Config.LargeOpenAIModel ==> d == 1536
  {
    match c
    case JinaClient => 1024
    case OpenAIClient(model) =>
      (match model
       case "text-embedding-3-small" => 1536
       case "text-embedding-3-large" => 3072
       case "text-embedding-ada-002" => 1536
       case _ => 1536)
  }

  /** The `input` field of an OpenAI request: one string, or an array. */
  datatype OpenAIInput = Scalar(text: string) | Array(texts: seq<string>)

  datatype Request =
    | JinaRequest(texts: seq<string>, normalized: bool, embeddingType: string)
    | OpenAIRequest(input: OpenAIInput, model: string, encodingFormat: string)

  /** The texts a request asks embeddings for. */
  function TextsOf(r: Request): seq<string> {
    match r
    case JinaRequest(texts, _, _) => texts
    case OpenAIRequest(Scalar(t), _, _) => [t]
    case OpenAIRequest(Array(ts), _, _) => ts
  }

  /** The request body for the single-result path (GenerateEmbeddings):
      OpenAI sends a lone text as a scalar string. */
  function SingleRequest(c: Client, texts: seq<string>): (r: Request)
    ensures TextsOf(r) == texts
    ensures r.OpenAIRequest? <==> c.OpenAIClient?
    ensures r.OpenAIRequest? ==> (r.input.Scalar? <==> |texts| == 1)
    ensures r.JinaRequest? ==> r.normalized && r.embeddingType == "float"
    ensures r.OpenAIRequest? ==> r.model == c.model && r.encodingFormat == "float"
  {
    match c
    case JinaClient => JinaRequest(texts, true, "float")
    case OpenAIClient(model) =>
      OpenAIRequest(if |texts| == 1 then Scalar(texts[0]) else Array(texts), model, "float")
  }

  /** The request body for the batch path: always an array. */
  function BatchRequest(c: Client, texts: seq<string>): (r: Request)
    ensures TextsOf(r) == texts
    ensures r.OpenAIRequest? <==> c.OpenAIClient?
    ensures r.OpenAIRequest? ==> r.input.Array?
    ensures r.JinaRequest? ==> r.normalized && r.embeddingType == "float"
    ensures r.OpenAIRequest? ==> r.model == c.model && r.encodingFormat == "float"
  {
    match c
    case JinaClient => JinaRequest(texts, true, "float")
    case OpenAIClient(model) => OpenAIRequest(Array(texts), model, "float")
  }

  /** An embedding call: the request sent (None when none was), and the outcome. */
  datatype Sent<T> = Sent(request: Option<Request>, result: Result<T>)

  /** The provider's answer, as the decoded `data` list of embeddings; Err for a
      transport failure, a non-200 status or an undecodable body. */
  type Reply = Result<seq<Vector>>

  /** GenerateEmbeddings: rejects an empty list without a request; otherwise
      the first returned embedding, an empty data list being an error. */
  function GenerateEmbeddings(c: Client, texts: seq<string>, reply: Reply): (r: Sent<Vector>)
    ensures |texts| == 0 ==> r == Sent(None, Err(NoTexts))
    ensures |texts| > 0 ==> r.request == Some(SingleRequest(c, texts))
    ensures r.result.Ok? <==> |texts| > 0 && reply.Ok? && |reply.value| > 0
    ensures r.result.Ok? ==> r.result.value == reply.value[0]
    ensures |texts| > 0 && reply.Ok? && |reply.value| == 0 ==> r.result == Err(NoEmbeddings)
  {
    if |texts| == 0 then Sent(None, Err(NoTexts))
    else
      var request := Some(SingleRequest(c, texts));
      match reply
      case Err(e) => Sent(request, Err(e))
      case Ok(data) =>
        if |data| == 0 then Sent(request, Err(NoEmbeddings)) else Sent(request, Ok(data[0]))
  }

  /** GenerateEmbedding: the one-text case of GenerateEmbeddings. */
  function GenerateEmbedding(c: Client, text: string, reply: Reply): (r: Sent<Vector>)
    ensures r.request.Some? && TextsOf(r.request.value) == [text]
    ensures c.OpenAIClient? ==> r.request == Some(OpenAIRequest(Scalar(text), c.model, "float"))
    ensures r.result.Ok? <==> reply.Ok? && |reply.value| > 0
    ensures r.result.Ok? ==> r.result.value == reply.value[0]
  {
    GenerateEmbeddings(c, [text], reply)
  }

  /** GenerateBatchEmbeddings: rejects an empty list without a request;
      otherwise one embedding per returned item, in response order, an empty
      data list being an empty (successful) answer. */
  function GenerateBatchEmbeddings(c: Client, texts: seq<string>, reply: Reply): (r: Sent<seq<Vector>>)
    ensures |texts| == 0 ==> r == Sent(None, Err(NoTexts))
    ensures |texts| > 0 ==> r.request == Some(BatchRequest(c, texts))
    ensures r.result.Ok? <==> |texts| > 0 && reply.Ok?
    ensures r.result.Ok? ==>
              && |r.result.value| == |reply.value|
              && forall i :: 0 <= i < |reply.value| ==> r.result.value[i] == reply.value[i]
  {
    if |texts| == 0 then Sent(None, Err(NoTexts))
    else
      var request := Some(BatchRequest(c, texts));
      match reply
      case Err(e) => Sent(request, Err(e))
      case Ok(data) => Sent(request, Ok(seq(|data|, i requires 0 <= i < |data| => data[i])))
  }

  /** The single path and the batch path differ on an empty response: one
      fails, the other succeeds with no vectors. */
  lemma EmptyResponseDiffers(c: Client, texts: seq<string>)
    requires |texts| > 0
    ensures GenerateEmbeddings(c, texts, Ok([])).result == Err(NoEmbeddings)
    ensures GenerateBatchEmbeddings(c, texts, Ok([])).result == Ok([])
  {
  }

  /** The switchable client: a provider tag beside the client it wraps. */
  datatype Unified = Unified(provider: string, client: Client)

  /** The invariant the wrapper keeps: its tag is its client's provider name. */
  predicate Consistent(u: Unified) {
    u.provider == ProviderName(ProviderOf(u.client))
  }

  /** NewUnifiedEmbeddingClient: the configured client, tagged with its provider. */
  function NewUnified(cfg: Config.Config): (u: Unified)
    ensures Consistent(u)
    ensures u.client == NewEmbeddingClient(cfg)
  {
    var c := NewEmbeddingClient(cfg);
    Unified(ProviderName(ProviderOf(c)), c)
  }

  /** SwitchProvider: "jina" or "openai" (case-sensitively) replace the client
      and the tag; anything else is an error and changes nothing. */
  function SwitchProvider(u: Unified, provider: string, cfg: Config.Config): (r: Result<Unified>)
    ensures r.Ok? <==> provider == "jina" || provider == "openai"
    ensures r.Err? ==> r.error == UnsupportedProvider(provider)
    ensures r.Ok? ==> Consistent(r.value) && r.value.provider == provider
    ensures r.Ok? && provider == "openai" ==> r.value.client == NewOpenAIClient(cfg)
  {
    if provider == "jina" then Ok(Unified(provider, JinaClient))
    else if provider == "openai" then Ok(Unified(provider, NewOpenAIClient(cfg)))
    else Err(UnsupportedProvider(provider))
  }

  /** Switching between providers changes the dimension the client reports, so
      every vector stored under the old provider now has the wrong length. */
  lemma SwitchChangesDimensions(u: Unified, cfg: Config.Config, stored: Vector)
    requires u.client.JinaClient?
    requires |stored| == Dimensions(u.client)
    ensures SwitchProvider(u, "openai", cfg).Ok?
    ensures |stored| != Dimensions(SwitchProvider(u, "openai", cfg).value.client)
  {
  }

  /** For the two provider tags start-up accepts, the configured dimension
      table and the selected client agree. */
  lemma ConfigDimensionsAgree(cfg: Config.Config)
    requires cfg.embeddingProvider == "jina" || cfg.embeddingProvider == "openai"
    ensures Config.EmbeddingDimensions(cfg) == Dimensions(NewEmbeddingClient(cfg))
  {
    assert ToLower("jina") == "jina";
    assert ToLower("openai") == "openai";
  }

  /** They disagree on a mixed-case tag, which selection lower-cases and the
      dimension table does not; start-up validation rejects such a tag. */
  lemma MixedCaseProviderDisagrees(cfg: Config.Config)
    requires cfg.embeddingProvider == "OpenAI"
    ensures Config.EmbeddingDimensions(cfg) == 1024
    ensures Dimensions(NewEmbeddingClient(cfg)) != 1024
    ensures !Config.Valid(cfg)
  {
    assert ToLower("OpenAI") == "openai";
  }
}

=== FILE: memory.dfy ===
/** The memory orchestrator (services/memory.go): composes the session
    adapter, the embedding adapter and the vector adapter into the service's
    operations. It keeps no state of its own: every operation maps the remote
    stores to new remote stores, given the outcome of each remote call. */
module Memory {

  import opened Common
  import Config
  import E = Embedding
  import S = SessionStore
  import V = VectorStore
  import Tasks

  /** The service, built from the configuration it reads. */
  datatype Service = Service(cfg: Config.Config)

  /** The embedding client NewMemoryService creates. */
  function Embedder(svc: Service): E.Client {
    E.NewEmbeddingClient(svc.cfg)
  }

  /** The remote state: the Redis keyspace, the vector index, and the vector
      client's cached dimension (0 until known). */
  datatype Stores = Stores(kv: S.Kv, index: V.Index, dims: int)

  /** Long-term memories live 30 days. */
  const MemoryTtl := 30 * 24 * 60 * 60

  /** The threshold used when the caller gives a non-positive one. */
  const DefaultMinScore: real := 0.5

  // ---------------------------------------------------------------------
  // Save

  datatype SaveRequest = SaveRequest(userId: string, sessionId: string, content: string, role: string)

  /** How far a save got. The Go function returns nil only for Committed; the
      other two are its error returns, told apart by the step that failed. */
  datatype SaveOutcome =
    | Committed              // session written and memory upserted
    | SessionOnly(cause: Error)  // session written, embedding or upsert failed: no rollback
    | NotSaved(cause: Error)     // the session write failed: nothing was embedded or upserted

  datatype Saved = Saved(stores: Stores, calls: seq<Call>, outcome: SaveOutcome)

  /** The outcome of each remote call a save makes. */
  datatype SaveRemote = SaveRemote(get: bool, session: S.SaveLinks, embed: E.Reply, upsert: bool)

  /** The session a save starts from when the read fails, for whatever reason. */
  function FreshSession(req: SaveRequest, now: int): S.SessionData {
    S.SessionData(req.userId, req.sessionId, [], Some(map[]), now, now)
  }

  /** The session a save starts from: the stored one, else a fresh one. */
  function BaseSession(kv: S.Kv, req: SaveRequest, now: int, getLink: bool): S.SessionData {
    match S.GetSession(kv, req.sessionId, getLink)
    case Ok(s) => s
    case Err(_) => FreshSession(req, now)
  }

  /** The memory entry a save upserts. */
  function NewEntry(req: SaveRequest, messageId: string, embedding: V.Vector, now: int): V.MemoryEntry {
    V.MemoryEntry(messageId, req.userId, req.content, embedding,
                  map["session_id" := Str(req.sessionId), "role" := Str(req.role)], now, MemoryTtl)
  }

  /** The metadata stored with a saved memory: the owner, the content, the
      time, the 30-day ttl, the session and the role. */
  lemma NewEntryMetadata(req: SaveRequest, messageId: string, embedding: V.Vector, now: int)
    ensures var md := V.UpsertMetadata(NewEntry(req, messageId, embedding, now));
      && md.Keys == {"user_id", "content", "timestamp", "ttl", "session_id", "role"}
      && md["user_id"] == Str(req.userId)
      && md["content"] == Str(req.content)
      && md["session_id"] == Str(req.sessionId)
      && md["role"] == Str(req.role)
      && md["timestamp"] == Num(now as real)
      && md["ttl"] == Num(MemoryTtl as real)
  {
    var m := NewEntry(req, messageId, embedding, now);
    assert m.metadata.Keys == {"session_id", "role"};
  }

  /** The part of a save after the session write: embed the content, then
      upsert the memory under the message id. */
  datatype Committing = Committing(index: V.Index, calls: seq<Call>, outcome: SaveOutcome)

  function Commit(svc: Service, index: V.Index, req: SaveRequest, now: int, messageId: string,
                  embed: E.Reply, upsertLink: bool): (r: Committing)
    ensures !r.outcome.NotSaved?
    ensures |r.calls| > 0 && r.calls[0] == EmbedTexts([req.content])
    ensures r.outcome.Committed? <==> embed.Ok? && |embed.value| > 0 && upsertLink
    ensures r.outcome.SessionOnly? ==> r.index == index
    ensures r.outcome.Committed? ==>
      && r.calls == [EmbedTexts([req.content]), VecUpsert(messageId)]
      && messageId in r.index
      && r.index[messageId].vector == embed.value[0]
      && r.index - {messageId} == index - {messageId}
      && var md := r.index[messageId].metadata;
      && md.Keys == {"user_id", "content", "timestamp", "ttl", "session_id", "role"}
      && md["user_id"] == Str(req.userId)
      && md["content"] == Str(req.content)
      && md["session_id"] == Str(req.sessionId)
      && md["role"] == Str(req.role)
      && md["timestamp"] == Num(now as real)
      && md["ttl"] == Num(MemoryTtl as real)
  {
    var embedded := E.GenerateEmbedding(Embedder(svc), req.content, embed);
    var call := EmbedTexts([req.content]);
    if embedded.result.Err? then
      Committing(index, [call], SessionOnly(Context("failed to generate embedding", embedded.result.error)))
    else
      NewEntryMetadata(req, messageId, embedded.result.value, now);
      var upserted := V.UpsertMemory(index, NewEntry(req, messageId, embedded.result.value, now), upsertLink);
      Committing(upserted.index, [call] + upserted.calls,
                 if upserted.result.Ok? then Committed
                 else SessionOnly(Context("failed to save vector memory", upserted.result.error)))
  }

  /** The session a save writes: the base session with the message appended
      and the activity time set to `now`. */
  function Appended(base: S.SessionData, req: SaveRequest, now: int, messageId: string): (s: S.SessionData)
    ensures s.messages == base.messages + [S.Message(messageId, req.role, req.content, now)]
    ensures s.lastActivity == now
    ensures s.userId == base.userId && s.sessionId == base.sessionId
    ensures s.createdAt == base.createdAt && s.context == base.context
  {
    base.(messages := base.messages + [S.Message(messageId, req.role, req.content, now)], lastActivity := now)
  }

  /** SaveMemory, in order: read the session (or start a fresh one), append the
      message and write the session back, embed the content, upsert the memory
      under the message id. */
  function SaveMemory(svc: Service, st: Stores, req: SaveRequest, now: int, messageId: string,
                      remote: SaveRemote): (r: Saved)
    ensures r.stores.dims == st.dims
    // the keyspace is exactly what the session write leaves: record under a fresh 86400 s TTL, id in the owner's set
    ensures r.stores.kv == S.SaveSession(st.kv, Appended(BaseSession(st.kv, req, now, remote.get), req, now, messageId),
                                         remote.session).kv
    // the session written: the stored one or a fresh one, with exactly the new message appended
    ensures remote.session.setex ==>
      S.SessionAt(r.stores.kv, S.SessionKey(BaseSession(st.kv, req, now, remote.get).sessionId))
        == Some(Appended(BaseSession(st.kv, req, now, remote.get), req, now, messageId))
    // a failed session write: no embedding, no vector write
    ensures r.outcome.NotSaved? <==>
      !S.SaveSession(st.kv, Appended(BaseSession(st.kv, req, now, remote.get), req, now, messageId),
                     remote.session).result.Ok?
    ensures r.outcome.NotSaved? ==> r.stores.index == st.index && !Embeds(r.calls) && !WritesVectors(r.calls)
    // once the session is written, the rest is the commit step
    ensures !r.outcome.NotSaved? ==>
      var c := Commit(svc, st.index, req, now, messageId, remote.embed, remote.upsert);
      r.stores.index == c.index && r.outcome == c.outcome
  {
    var session := Appended(BaseSession(st.kv, req, now, remote.get), req, now, messageId);
    var written := S.SaveSession(st.kv, session, remote.session);
    var calls := [KvGet(S.SessionKey(req.sessionId))] + written.calls;
    if written.result.Err? then
      Saved(st.(kv := written.kv), calls, NotSaved(Context("failed to save session", written.result.error)))
    else
      var c := Commit(svc, st.index, req, now, messageId, remote.embed, remote.upsert);
      Saved(Stores(written.kv, c.index, st.dims), calls + c.calls, c.outcome)
  }

  /** A read that fails for any reason, not only a missing record, starts a
      fresh session: empty history, ids from the request, both times `now`. */
  lemma SaveAfterFailedReadStartsFresh(svc: Service, st: Stores, req: SaveRequest, now: int,
                                       messageId: string, remote: SaveRemote)
    requires !remote.get || S.SessionAt(st.kv, S.SessionKey(req.sessionId)).None?
    requires remote.session.setex
    ensures S.SessionAt(SaveMemory(svc, st, req, now, messageId, remote).stores.kv, S.SessionKey(req.sessionId))
         == Some(S.SessionData(req.userId, req.sessionId, [S.Message(messageId, req.role, req.content, now)],
                               Some(map[]), now, now))
  {
    assert BaseSession(st.kv, req, now, remote.get) == FreshSession(req, now);
    assert [] + [S.Message(messageId, req.role, req.content, now)] == [S.Message(messageId, req.role, req.content, now)];
  }

  /** A successful save issues its calls in the order session read, session
      write (record, owner set, expiry), embedding, vector upsert. */
  lemma SaveCallOrder(svc: Service, st: Stores, req: SaveRequest, now: int,
                                         messageId: string, remote: SaveRemote)
    requires SaveMemory(svc, st, req, now, messageId, remote).outcome.Committed?
    ensures var base := BaseSession(st.kv, req, now, remote.get);
      SaveMemory(svc, st, req, now, messageId, remote).calls ==
        [KvGet(S.SessionKey(req.sessionId)),
         KvSetEx(S.SessionKey(base.sessionId), S.SessionTtl),
         KvSAdd(S.UserSessionsKey(base.userId), base.sessionId),
         KvExpire(S.UserSessionsKey(base.userId), S.SessionTtl),
         EmbedTexts([req.content]),
         VecUpsert(messageId)]
  {
  }

  /** A failure after the session write leaves the new message in the session
      (no rollback) and the owner's set listing the session. */
  lemma SessionOnlyKeepsMessage(svc: Service, st: Stores, req: SaveRequest, now: int,
                                messageId: string, remote: SaveRemote)
    requires SaveMemory(svc, st, req, now, messageId, remote).outcome.SessionOnly?
    ensures var base := BaseSession(st.kv, req, now, remote.get);
      var r := SaveMemory(svc, st, req, now, messageId, remote);
      && S.SessionAt(r.stores.kv, S.SessionKey(base.sessionId)).Some?
      && S.Message(messageId, req.role, req.content, now)
           in S.SessionAt(r.stores.kv, S.SessionKey(base.sessionId)).value.messages
      && base.sessionId in S.MembersAt(r.stores.kv, S.UserSessionsKey(base.userId))
      && r.stores.index == st.index
  {
    var base := BaseSession(st.kv, req, now, remote.get);
    var session := base.(messages := base.messages + [S.Message(messageId, req.role, req.content, now)],
                         lastActivity := now);
    assert S.SaveSession(st.kv, session, remote.session).result.Ok?;
    assert session.messages[|base.messages|] == S.Message(messageId, req.role, req.content, now);
  }

  /** A save keeps every session record under its own session id. */
  lemma SaveKeepsWellKeyed(svc: Service, st: Stores, req: SaveRequest, now: int,
                           messageId: string, remote: SaveRemote)
    requires S.WellKeyed(st.kv)
    ensures S.WellKeyed(SaveMemory(svc, st, req, now, messageId, remote).stores.kv)
  {
    var base := BaseSession(st.kv, req, now, remote.get);
    var session := base.(messages := base.messages + [S.Message(messageId, req.role, req.content, now)],
                         lastActivity := now);
    S.SaveSessionKeepsWellKeyed(st.kv, session, remote.session);
  }

  /** On a well-keyed store the save lands in the requested session. */
  lemma SaveLandsInRequestedSession(svc: Service, st: Stores, req: SaveRequest, now: int,
                                    messageId: string, remote: SaveRemote)
    requires S.WellKeyed(st.kv)
    requires remote.session.setex
    ensures BaseSession(st.kv, req, now, remote.get).sessionId == req.sessionId
    ensures var w := S.SessionAt(SaveMemory(svc, st, req, now, messageId, remote).stores.kv, S.SessionKey(req.sessionId));
      w.Some? && w.value.messages[|w.value.messages| - 1].id == messageId
  {
  }

  // ---------------------------------------------------------------------
  // Query

  datatype QueryRequest = QueryRequest(userId: string, query: string, limit: int, minScore: real)

  datatype QueryResponse = QueryResponse(results: seq<V.MemoryResult>, total: int)

  datatype Queried = Queried(calls: seq<Call>, result: Result<QueryResponse>)

  /** The threshold actually applied: 0.5 in place of a non-positive one. */
  function EffectiveMinScore(minScore: real): (m: real)
    ensures m > 0.0
    ensures minScore > 0.0 ==> m == minScore
    ensures minScore <= 0.0 ==> m == DefaultMinScore
  {
    if minScore <= 0.0 then DefaultMinScore else minScore
  }

  /** QueryMemory: embed the query text, then query the owner's memories with
      the default-substituted limit and threshold. `reply` is the index's
      list of matches for that query. */
  function QueryMemory(svc: Service, req: QueryRequest, embed: E.Reply, reply: Result<seq<V.Match>>): (r: Queried)
    ensures |r.calls| > 0 && r.calls[0] == EmbedTexts([req.query])
    ensures !(embed.Ok? && |embed.value| > 0) ==> r.result.Err? && !QueriesVectors(r.calls)
    ensures embed.Ok? && |embed.value| > 0 ==>
      r.calls == [EmbedTexts([req.query]),
                  VecQuery(|embed.value[0]|, V.EffectiveLimit(req.limit), Some(V.UserFilter(req.userId)))]
    ensures r.result.Ok? <==> embed.Ok? && |embed.value| > 0 && reply.Ok?
    ensures r.result.Ok? ==> r.result.value.total == |r.result.value.results|
    ensures r.result.Ok? ==> r.result.value.results == V.FilterFrom(reply.value, EffectiveMinScore(req.minScore), 0)
    ensures r.result.Ok? ==> forall j :: 0 <= j < |r.result.value.results| ==>
      r.result.value.results[j].score >= EffectiveMinScore(req.minScore)
  {
    var embedded := E.GenerateEmbedding(Embedder(svc), req.query, embed);
    var call := EmbedTexts([req.query]);
    if embedded.result.Err? then
      Queried([call], Err(Context("failed to generate query embedding", embedded.result.error)))
    else
      var answer := V.QueryMemories(req.userId, embedded.result.value, V.EffectiveLimit(req.limit),
                                    EffectiveMinScore(req.minScore), reply);
      match answer.result
      case Err(e) => Queried([call] + answer.calls, Err(Context("failed to query memories", e)))
      case Ok(results) => Queried([call] + answer.calls, Ok(QueryResponse(results, |results|)))
  }

  /** After a committed save, a query by anyone whose index reply lists the
      stored entry at or above the threshold returns the saved content under
      the message id. */
  lemma SaveThenQuery(svc: Service, st: Stores, req: SaveRequest, now: int, messageId: string,
                      remote: SaveRemote, q: QueryRequest, embed: E.Reply, ms: seq<V.Match>, p: nat)
    requires SaveMemory(svc, st, req, now, messageId, remote).outcome.Committed?
    requires p < |ms| && ms[p].id == messageId
    requires ms[p].metadata == Some(SaveMemory(svc, st, req, now, messageId, remote).stores.index[messageId].metadata)
    requires ms[p].score >= EffectiveMinScore(q.minScore)
    requires embed.Ok? && |embed.value| > 0
    ensures var r := QueryMemory(svc, q, embed, Ok(ms));
      && r.result.Ok?
      && exists j :: 0 <= j < |r.result.value.results|
           && r.result.value.results[j].content == req.content
           && "id" in r.result.value.results[j].metadata
           && r.result.value.results[j].metadata["id"] == Str(messageId)
  {
    var min := EffectiveMinScore(q.minScore);
    V.FilterIsOrderedSelection(ms, min, 0);
    var idx := V.KeptFrom(ms, min, 0);
    var rs := V.FilterFrom(ms, min, 0);
    assert p in idx;
    var j :| 0 <= j < |idx| && idx[j] == p;
    assert rs[j] == V.ToResult(ms[p]);
  }

  /** A query's result list alone, with the calls that produced it. */
  datatype Listed = Listed(calls: seq<Call>, result: Result<seq<V.MemoryResult>>)

  /** The result list of a query response, as the helpers built on QueryMemory return it. */
  function ResultsOf(q: Queried): (l: Listed)
    ensures l.calls == q.calls
    ensures l.result.Ok? <==> q.result.Ok?
    ensures l.result.Ok? ==> l.result.value == q.result.value.results
    ensures l.result.Err? ==> l.result.error == q.result.error
  {
    match q.result
    case Ok(response) => Listed(q.calls, Ok(response.results))
    case Err(e) => Listed(q.calls, Err(e))
  }

  /** GetRecentMemories: a query for "recent conversation" at threshold 0.1,
      20 results unless a positive limit is given; only the results are returned. */
  function GetRecentMemories(svc: Service, userId: string, limit: int, embed: E.Reply,
                             reply: Result<seq<V.Match>>): (r: Listed)
    ensures |r.calls| > 0 && r.calls[0] == EmbedTexts(["recent conversation"])
    ensures embed.Ok? && |embed.value| > 0 ==>
      |r.calls| == 2 && r.calls[1] == VecQuery(|embed.value[0]|, if limit <= 0 then 20 else limit, Some(V.UserFilter(userId)))
    ensures r.result.Ok? <==> embed.Ok? && |embed.value| > 0 && reply.Ok?
    ensures r.result.Ok? ==> r.result.value == V.FilterFrom(reply.value, 0.1, 0)
  {
    ResultsOf(QueryMemory(svc, QueryRequest(userId, "recent conversation", if limit <= 0 then 20 else limit, 0.1), embed, reply))
  }

  /** SearchMemoriesByKeyword: a query for the keyword at threshold 0.6; only
      the results are returned. */
  function SearchMemoriesByKeyword(svc: Service, userId: string, keyword: string, limit: int,
                                   embed: E.Reply, reply: Result<seq<V.Match>>): (r: Listed)
    ensures |r.calls| > 0 && r.calls[0] == EmbedTexts([keyword])
    ensures embed.Ok? && |embed.value| > 0 ==>
      |r.calls| == 2 && r.calls[1] == VecQuery(|embed.value[0]|, V.EffectiveLimit(limit), Some(V.UserFilter(userId)))
    ensures r.result.Ok? <==> embed.Ok? && |embed.value| > 0 && reply.Ok?
    ensures r.result.Ok? ==> r.result.value == V.FilterFrom(reply.value, 0.6, 0)
    ensures r.result.Ok? ==> forall j :: 0 <= j < |r.result.value| ==> r.result.value[j].score >= 0.6
  {
    ResultsOf(QueryMemory(svc, QueryRequest(userId, keyword, limit, 0.6), embed, reply))
  }

  // ---------------------------------------------------------------------
  // Deleting one memory

  datatype Done = Done(stores: Stores, calls: seq<Call>, result: Result<()>)

  /** True when some result carries `id` in its metadata. */
  predicate Lists(results: seq<V.MemoryResult>, id: string) {
    exists j :: 0 <= j < |results| && "id" in results[j].metadata && results[j].metadata["id"] == Str(id)
  }

  /** DeleteMemory as written: an ownership query (limit 100, threshold 0.0,
      which QueryMemory replaces by 0.5), then the delete when the id is
      among the results. */
  function DeleteMemory(svc: Service, st: Stores, memoryId: string, userId: string, embed: E.Reply,
                        reply: Result<seq<V.Match>>, link: bool): (r: Done)
    ensures r.stores.kv == st.kv && r.stores.dims == st.dims
    ensures var q := QueryMemory(svc, QueryRequest(userId, "verify memory ownership", 100, 0.0), embed, reply);
      && (q.result.Err? ==> r.stores == st && r.result.Err?)
      && (q.result.Ok? && !Lists(q.result.value.results, memoryId) ==> r.stores == st && r.result == Err(MemoryNotOwned))
      && (q.result.Ok? && Lists(q.result.value.results, memoryId) ==>
            (r.result.Ok? <==> link) && (link ==> r.stores.index == st.index - {memoryId}))
    ensures r.stores.index != st.index ==> memoryId in st.index && r.stores.index == st.index - {memoryId}
  {
    var q := QueryMemory(svc, QueryRequest(userId, "verify memory ownership", 100, 0.0), embed, reply);
    match q.result
    case Err(e) => Done(st, q.calls, Err(Context("failed to verify memory ownership", e)))
    case Ok(response) =>
      if !Lists(response.results, memoryId) then Done(st, q.calls, Err(MemoryNotOwned))
      else
        var d := V.DeleteMemory(st.index, memoryId, link);
        Done(st.(index := d.index), q.calls + d.calls,
             if d.result.Ok? then Ok(()) else Err(Context("failed to delete memory", d.result.error)))
  }

  /** The explicit threshold 0.0 is replaced by 0.5, so an owned memory that
      the index scores at 0.3 against the placeholder query cannot be deleted. */
  lemma DeleteMemoryMissesLowScores(svc: Service, st: Stores, memoryId: string, userId: string,
                                    vector: V.Vector, md: Metadata)
    requires memoryId in st.index
    ensures var r := DeleteMemory(svc, st, memoryId, userId, Ok([vector]),
                                  Ok([V.Match(memoryId, 0.3, Some(md))]), true);
      r.result == Err(MemoryNotOwned) && memoryId in r.stores.index
  {
    var ms := [V.Match(memoryId, 0.3, Some(md))];
    assert V.FilterFrom(ms, 0.5, 0) == [];
  }

  /** DeleteMemory with the ownership query at the threshold its call site
      asks for (0.0: every non-negative score), through the vector adapter
      directly so that no default is substituted. */
  function DeleteMemoryAnyScore(svc: Service, st: Stores, memoryId: string, userId: string, embed: E.Reply,
                                reply: Result<seq<V.Match>>, link: bool): (r: Done)
    ensures r.stores.kv == st.kv && r.stores.dims == st.dims
    ensures r.stores.index != st.index ==> memoryId in st.index && r.stores.index == st.index - {memoryId}
  {
    var embedded := E.GenerateEmbedding(Embedder(svc), "verify memory ownership", embed);
    var call := EmbedTexts(["verify memory ownership"]);
    if embedded.result.Err? then
      Done(st, [call], Err(Context("failed to verify memory ownership", embedded.result.error)))
    else
      var answer := V.QueryMemories(userId, embedded.result.value, 100, 0.0, reply);
      match answer.result
      case Err(e) => Done(st, [call] + answer.calls, Err(Context("failed to verify memory ownership", e)))
      case Ok(results) =>
        if !Lists(results, memoryId) then Done(st, [call] + answer.calls, Err(MemoryNotOwned))
        else
          var d := V.DeleteMemory(st.index, memoryId, link);
          Done(st.(index := d.index), [call] + answer.calls + d.calls,
               if d.result.Ok? then Ok(()) else Err(Context("failed to delete memory", d.result.error)))
  }

  /** With the intended threshold, an owned memory the index returns with any
      non-negative score is deleted. */
  lemma DeleteMemoryAnyScoreFindsOwned(svc: Service, st: Stores, memoryId: string, userId: string,
                                       embed: E.Reply, ms: seq<V.Match>, p: nat)
    requires embed.Ok? && |embed.value| > 0
    requires p < |ms| && ms[p].id == memoryId && ms[p].score >= 0.0
    ensures var r := DeleteMemoryAnyScore(svc, st, memoryId, userId, embed, Ok(ms), true);
      r.result.Ok? && r.stores.index == st.index - {memoryId}
  {
    V.FilterIsOrderedSelection(ms, 0.0, 0);
    var idx := V.KeptFrom(ms, 0.0, 0);
    var rs := V.FilterFrom(ms, 0.0, 0);
    assert p in idx;
    var j :| 0 <= j < |idx| && idx[j] == p;
    assert rs[j] == V.ToResult(ms[p]);
    assert Lists(rs, memoryId);
  }

  // ---------------------------------------------------------------------
  // Sessions

  datatype Fetched = Fetched(kv: S.Kv, calls: seq<Call>, result: Result<S.SessionData>)

  /** GetSession: the stored record, then a best-effort refresh of its
      activity time whose failure does not fail the read. */
  function GetSession(kv: S.Kv, id: string, now: int, getLink: bool, refreshGet: bool,
                      refresh: S.SaveLinks): (r: Fetched)
    ensures r.result.Ok? <==> getLink && S.SessionAt(kv, S.SessionKey(id)).Some?
    ensures r.result.Ok? ==> r.result.value == S.SessionAt(kv, S.SessionKey(id)).value
    ensures r.result.Err? ==> r.kv == kv
    ensures getLink && S.SessionAt(kv, S.SessionKey(id)).None? ==>
      r.result.Err? && (S.SessionKey(id) !in kv ==> r.result.error == Context("failed to get session", SessionNotFound))
    ensures r.result.Ok? && refreshGet && refresh.setex ==>
      var w := S.SessionAt(r.kv, S.SessionKey(r.result.value.sessionId));
      w.Some? && w.value == r.result.value.(lastActivity := now)
  {
    match S.GetSession(kv, id, getLink)
    case Err(e) => Fetched(kv, [KvGet(S.SessionKey(id))], Err(Context("failed to get session", e)))
    case Ok(s) =>
      var touched := S.UpdateSessionActivity(kv, id, now, refreshGet, refresh);
      Fetched(touched.kv, [KvGet(S.SessionKey(id))] + touched.calls, Ok(s))
  }

  /** DeleteSession: with `deleteMemories` the record must exist first, yet no
      memory is deleted either way; then the record key is deleted. */
  function DeleteSession(st: Stores, id: string, deleteMemories: bool, getLink: bool, delLink: bool): (r: Done)
    ensures r.stores.index == st.index && r.stores.dims == st.dims && !WritesVectors(r.calls)
    ensures deleteMemories && S.GetSession(st.kv, id, getLink).Err? ==> r.stores == st && r.result.Err?
    ensures r.result.Ok? <==> delLink && (!deleteMemories || S.GetSession(st.kv, id, getLink).Ok?)
    ensures r.result.Ok? ==> S.SessionKey(id) !in r.stores.kv
    ensures r.result.Err? ==> r.stores == st
    ensures r.stores.kv - {S.SessionKey(id)} == st.kv - {S.SessionKey(id)}
    ensures !deleteMemories ==> r.calls == [KvDel(S.SessionKey(id))]
  {
    var read := if deleteMemories then [KvGet(S.SessionKey(id))] else [];
    if deleteMemories && S.GetSession(st.kv, id, getLink).Err? then
      Done(st, read, Err(Context("failed to get session", S.GetSession(st.kv, id, getLink).error)))
    else
      var d := S.DeleteSession(st.kv, id, delLink);
      Done(st.(kv := d.kv), read + d.calls,
           if d.result.Ok? then Ok(()) else Err(Context("failed to delete session from Redis", d.result.error)))
  }

  // ---------------------------------------------------------------------
  // Cleanup

  /** The outcome of the remote calls of a vector cleanup: the decoded index
      dimension, the index's matches, and the ids whose delete fails. */
  datatype VectorRemote = VectorRemote(stats: Result<Option<nat>>, reply: Result<seq<V.Match>>, failing: set<string>)

  /** True when every memory the index listed was deleted. */
  predicate VectorStepDone(vr: VectorRemote) {
    vr.reply.Ok? && V.FirstFailing(vr.reply.value, vr.failing) == |vr.reply.value|
  }

  /** The session keys a cleanup deletes: those of the listed ids whose DEL succeeds. */
  function DeletedKeys(ids: seq<string>, failingKeys: set<string>): set<string> {
    set id | id in ids && S.SessionKey(id) !in failingKeys :: S.SessionKey(id)
  }

  /** True when the entry under `id` belongs to `userId`. */
  predicate OwnedBy(index: V.Index, id: string, userId: string) {
    id in index && "user_id" in index[id].metadata && index[id].metadata["user_id"] == Str(userId)
  }

  /** One DEL per listed session, in list order. */
  function DelCalls(ids: seq<string>): (cs: seq<Call>)
    ensures |cs| == |ids|
    ensures forall i :: 0 <= i < |ids| ==> cs[i] == KvDel(S.SessionKey(ids[i]))
  {
    seq(|ids|, i requires 0 <= i < |ids| => KvDel(S.SessionKey(ids[i])))
  }

  /** The Redis commands an owner cleanup issues once its vector step has
      succeeded: SMEMBERS of the owner's set, then a DEL per listed session. */
  function SessionCleanupCalls(kv: S.Kv, userId: string, membersLink: bool): seq<Call> {
    [KvSMembers(S.UserSessionsKey(userId))]
      + match S.GetUserSessions(kv, userId, membersLink)
        case Ok(ids) => DelCalls(ids)
        case Err(_) => []
  }

  /** A trace of non-Redis calls followed by `tail` ends with `tail`, and
      what precedes it holds no Redis command. */
  lemma TraceEndsWith(head: seq<Call>, tail: seq<Call>)
    requires NoKv(head)
    ensures (head + tail)[|head + tail| - |tail|..] == tail
    ensures NoKv((head + tail)[..|head + tail| - |tail|])
  {
    assert (head + tail)[..|head|] == head;
  }

  /** The DEL loop of an owner cleanup: every listed session in turn, a
      failing DEL skipped. */
  method DeleteListedSessions(kv: S.Kv, ids: seq<string>, failingKeys: set<string>)
    returns (kv': S.Kv, calls: seq<Call>)
    ensures kv' == kv - DeletedKeys(ids, failingKeys)
    ensures calls == DelCalls(ids)
  {
    kv' := kv;
    calls := [];
    var i := 0;
    while i < |ids|
      invariant 0 <= i <= |ids|
      invariant kv' == kv - DeletedKeys(ids[..i], failingKeys)
      invariant calls == DelCalls(ids[..i])
    {
      var d := S.DeleteSession(kv', ids[i], S.SessionKey(ids[i]) !in failingKeys);
      calls := calls + d.calls;
      assert ids[..i + 1] == ids[..i] + [ids[i]];
      assert DelCalls(ids[..i + 1]) == DelCalls(ids[..i]) + [KvDel(S.SessionKey(ids[i]))];
      assert DeletedKeys(ids[..i + 1], failingKeys)
          == DeletedKeys(ids[..i], failingKeys)
             + (if S.SessionKey(ids[i]) !in failingKeys then {S.SessionKey(ids[i])} else {});
      kv' := d.kv;
      i := i + 1;
    }
    assert ids[..i] == ids;
  }

  /** CleanupUserMemories: delete the owner's memories, then every session in
      the owner's set; a failing vector delete stops everything before any
      session is touched, a failing session delete is skipped. */
  method CleanupUserMemories(svc: Service, st: Stores, userId: string, vr: VectorRemote,
                             membersLink: bool, failingKeys: set<string>)
    returns (st': Stores, calls: seq<Call>, result: Result<()>)
    ensures vr.reply.Err? ==> st'.index == st.index && result.Err?
    ensures vr.reply.Ok? ==> st'.index == st.index - V.IdsOf(vr.reply.value[..V.FirstFailing(vr.reply.value, vr.failing)])
    ensures st'.dims == V.GetDimensions(st.dims, vr.stats).cache
    // the vector step failed: no session was deleted
    ensures vr.reply.Err? || V.FirstFailing(vr.reply.value, vr.failing) < |vr.reply.value| ==>
      st'.kv == st.kv && result.Err? && NoKv(calls)
    // otherwise the Redis commands come last, after every vector call
    ensures vr.reply.Ok? && V.FirstFailing(vr.reply.value, vr.failing) == |vr.reply.value| ==>
      var tail := SessionCleanupCalls(st.kv, userId, membersLink);
      && |calls| >= |tail|
      && calls[|calls| - |tail|..] == tail
      && NoKv(calls[..|calls| - |tail|])
    ensures result.Ok? <==>
      && vr.reply.Ok? && V.FirstFailing(vr.reply.value, vr.failing) == |vr.reply.value|
      && S.GetUserSessions(st.kv, userId, membersLink).Ok?
    ensures result.Ok? ==> st'.kv == st.kv - DeletedKeys(S.MembersAt(st.kv, S.UserSessionsKey(userId)), failingKeys)
    // the owner's set itself is left in place
    ensures S.MembersAt(st'.kv, S.UserSessionsKey(userId)) == S.MembersAt(st.kv, S.UserSessionsKey(userId))
    // when the index returned all of the owner's memories, none is left
    ensures result.Ok? && (forall id :: OwnedBy(st.index, id, userId) ==> id in V.IdsOf(vr.reply.value)) ==>
      forall id :: !OwnedBy(st'.index, id, userId)
  {
    var index, cache, vectorCalls, deleted := V.DeleteUserMemories(st.index, st.dims, userId,
      Config.EmbeddingDimensions(svc.cfg), vr.stats, vr.reply, vr.failing);
    st' := st.(index := index, dims := cache);
    calls := vectorCalls;
    if deleted.Err? {
      return st', calls, Err(Context("failed to delete user memories from vector DB", deleted.error));
    }
    assert vr.reply.value[..|vr.reply.value|] == vr.reply.value;
    var sessions := S.GetUserSessions(st.kv, userId, membersLink);
    if sessions.Err? {
      calls := vectorCalls + SessionCleanupCalls(st.kv, userId, membersLink);
      TraceEndsWith(vectorCalls, SessionCleanupCalls(st.kv, userId, membersLink));
      return st', calls, Err(Context("failed to get user sessions", sessions.error));
    }
    var ids := sessions.value;
    var kv, delCalls := DeleteListedSessions(st.kv, ids, failingKeys);
    calls := vectorCalls + ([KvSMembers(S.UserSessionsKey(userId))] + delCalls);
    TraceEndsWith(vectorCalls, SessionCleanupCalls(st.kv, userId, membersLink));
    forall id | id in ids
      ensures S.SessionKey(id) != S.UserSessionsKey(userId)
    {
      S.KeysDisjoint(id, userId);
    }
    st' := st'.(kv := kv);
    result := Ok(());
  }

  /** CleanupExpiredMemories: the vector adapter's expiry sweep. */
  method CleanupExpiredMemories(svc: Service, st: Stores, now: int, vr: VectorRemote)
    returns (st': Stores, calls: seq<Call>, result: Result<()>)
    ensures st'.kv == st.kv && NoKv(calls)
    ensures result.Ok? <==> vr.reply.Ok?
    ensures vr.reply.Ok? ==> st'.index == st.index - V.SweptIds(vr.reply.value, now, vr.failing)
    ensures vr.reply.Err? ==> st'.index == st.index
  {
    var index, cache;
    index, cache, calls, result := V.DeleteExpiredMemories(st.index, st.dims, now,
      Config.EmbeddingDimensions(svc.cfg), vr.stats, vr.reply, vr.failing);
    st' := st.(index := index, dims := cache);
  }

  // ---------------------------------------------------------------------
  // Scheduling

  /** The daily schedule of the expiry sweep, at 02:00. */
  const DailyCleanupCron := "0 2 * * *"

  /** An id obtained from the dispatcher, or the dispatcher's error wrapped
      with the service operation's name. */
  function WithContext(r: Result<string>, what: string): (w: Result<string>)
    ensures w.Ok? <==> r.Ok?
    ensures w.Ok? ==> w.value == r.value
    ensures w.Err? ==> w.error == Context(what, r.error)
  {
    match r
    case Ok(id) => Ok(id)
    case Err(e) => Err(Context(what, e))
  }

  /** ScheduleCleanup: a recurring expiry sweep on the daily schedule. */
  function ScheduleCleanup(callbackUrl: string, now: int, reply: Tasks.Reply): (r: Tasks.Dispatched<Tasks.ScheduleRequest>)
    ensures r.request.cron == DailyCleanupCron && r.request.destination == callbackUrl
    ensures r.request.body == Tasks.CleanupTask(Tasks.ExpireAll, "", now, 0) && r.request.retries == Tasks.Retries
    ensures r.result.Ok? <==> reply.Http? && Tasks.IsSuccess(reply.status) && reply.id.Some?
  {
    var d := Tasks.ScheduleCleanupTask(callbackUrl, DailyCleanupCron, now, reply);
    d.(result := WithContext(d.result, "failed to schedule cleanup"))
  }

  /** ScheduleDelayedUserCleanup: a one-shot owner cleanup after `delay` seconds. */
  function ScheduleDelayedUserCleanup(callbackUrl: string, userId: string, delay: int, now: int,
                                      reply: Tasks.Reply): (r: Tasks.Dispatched<Tasks.PublishRequest>)
    ensures r.request.url == callbackUrl && r.request.delay == delay
    ensures r.request.body == Tasks.CleanupTask(Tasks.CleanupUser, userId, now, delay)
    ensures r.result.Ok? <==> reply.Http? && Tasks.IsSuccess(reply.status) && reply.id.Some?
  {
    var d := Tasks.PublishDelayedMemoryCleanup(callbackUrl, userId, delay, now, reply);
    d.(result := WithContext(d.result, "failed to schedule user cleanup"))
  }
}

=== FILE: session_store.dfy ===
/** The session adapter (clients/redis.go) over an Upstash-style Redis
    keyspace. A session record is stored as JSON under "session:<id>" with a
    24-hour expiry, and every session id a user wrote is added to the set
    "user_sessions:<userId>", whose expiry is reset on each write. */
module SessionStore {

  import opened Common

  /** The retention window of records and of the per-user set, in seconds. */
  const SessionTtl := 86400

  datatype Message = Message(id: string, role: string, content: string, timestamp: int)

  /** A session record; `context` is None when its JSON holds null. */
  datatype SessionData = SessionData(
    userId: string,
    sessionId: string,
    messages: seq<Message>,
    context: Option<Metadata>,
    lastActivity: int,
    createdAt: int)

  /** What GET returns for a string key: a record that decodes, a value that
      does not come back as a string, or a string that is not a record. */
  datatype Blob = Json(session: SessionData) | NonString | Malformed

  /** A Redis value with its expiry: a string written by SETEX, or a set. */
  datatype Stored =
    | StrVal(blob: Blob, ttl: int)
    | SetVal(members: seq<string>, setTtl: Option<int>)

  /** The keyspace. */
  type Kv = map<string, Stored>

  const SessionPrefix := "session:"
  const UserSessionsPrefix := "user_sessions:"

  function SessionKey(id: string): string {
    SessionPrefix + id
  }

  function UserSessionsKey(userId: string): string {
    UserSessionsPrefix + userId
  }

  /** Distinct session ids use distinct keys. */
  lemma SessionKeyInjective(a: string, b: string)
    requires SessionKey(a) == SessionKey(b)
    ensures a == b
  {
    assert a == SessionKey(a)[|SessionPrefix|..];
    assert b == SessionKey(b)[|SessionPrefix|..];
  }

  /** A record key never names a per-user set. */
  lemma KeysDisjoint(id: string, userId: string)
    ensures SessionKey(id) != UserSessionsKey(userId)
  {
    assert SessionKey(id)[1] == 'e';
    assert UserSessionsKey(userId)[1] == 's';
  }

  /** The decodable session record stored under `key`, if any. */
  function SessionAt(kv: Kv, key: string): Option<SessionData> {
    if key in kv && kv[key].StrVal? && kv[key].blob.Json? then Some(kv[key].blob.session) else None
  }

  /** The members of the set under `key`; none when the key is absent. */
  function MembersAt(kv: Kv, key: string): seq<string> {
    if key in kv && kv[key].SetVal? then kv[key].members else []
  }

  /** True when `key` holds a string, so that set commands on it fail. */
  predicate HoldsString(kv: Kv, key: string) {
    key in kv && kv[key].StrVal?
  }

  /** Every record sits under the key of its own session id. */
  ghost predicate WellKeyed(kv: Kv) {
    forall id :: SessionAt(kv, SessionKey(id)).Some? ==> SessionAt(kv, SessionKey(id)).value.sessionId == id
  }

  predicate NoDuplicates(xs: seq<string>) {
    forall i, j :: 0 <= i < j < |xs| ==> xs[i] != xs[j]
  }

  /** SADD on the member list: the set gains `m`, nothing else changes. */
  function AddMember(members: seq<string>, m: string): (r: seq<string>)
    ensures forall x :: x in r <==> x in members || x == m
    ensures NoDuplicates(members) ==> NoDuplicates(r)
    ensures |r| <= |members| + 1
  {
    if m in members then members else members + [m]
  }

  /** The state after a sequence of commands, the commands issued, the outcome. */
  datatype Step<T> = Step(kv: Kv, calls: seq<Call>, result: Result<T>)

  /** Whether each of the three commands of SaveSession reaches the store
      (false: a transport failure, a non-200 status or an error reply). */
  datatype SaveLinks = SaveLinks(setex: bool, sadd: bool, expire: bool)

  const AllUp := SaveLinks(true, true, true)

  /** SaveSession: SETEX the record for 24 hours, then SADD its id to the
      owner's set, then EXPIRE that set for 24 hours. A failing command stops
      the sequence; what was written before it stays written. */
  function SaveSession(kv: Kv, s: SessionData, links: SaveLinks): (r: Step<()>)
    ensures !links.setex ==> r.kv == kv && r.result.Err?
    ensures links.setex ==>
              && SessionKey(s.sessionId) in r.kv
              && r.kv[SessionKey(s.sessionId)] == StrVal(Json(s), SessionTtl)
    ensures r.result.Ok? <==>
      links.setex && links.sadd && links.expire && !HoldsString(kv, UserSessionsKey(s.userId))
    ensures r.result.Ok? ==>
      && UserSessionsKey(s.userId) in r.kv
      && r.kv[UserSessionsKey(s.userId)].SetVal?
      && r.kv[UserSessionsKey(s.userId)].setTtl == Some(SessionTtl)
      && (forall x :: x in MembersAt(r.kv, UserSessionsKey(s.userId))
            <==> x in MembersAt(kv, UserSessionsKey(s.userId)) || x == s.sessionId)
    ensures !links.sadd ==> UserSessionsKey(s.userId) !in kv ==> UserSessionsKey(s.userId) !in r.kv
    ensures r.kv - {SessionKey(s.sessionId), UserSessionsKey(s.userId)}
         == kv - {SessionKey(s.sessionId), UserSessionsKey(s.userId)}
    ensures 1 <= |r.calls| <= 3 && r.calls[0] == KvSetEx(SessionKey(s.sessionId), SessionTtl)
    ensures r.result.Ok? ==> r.calls == [KvSetEx(SessionKey(s.sessionId), SessionTtl),
                                         KvSAdd(UserSessionsKey(s.userId), s.sessionId),
                                         KvExpire(UserSessionsKey(s.userId), SessionTtl)]
    ensures AllKv(r.calls)
  {
    var key := SessionKey(s.sessionId);
    var userKey := UserSessionsKey(s.userId);
    KeysDisjoint(s.sessionId, s.userId);
    if !links.setex then
      Step(kv, [KvSetEx(key, SessionTtl)], Err(Upstream("failed to save session")))
    else
      var kv1 := kv[key := StrVal(Json(s), SessionTtl)];
      var calls := [KvSetEx(key, SessionTtl), KvSAdd(userKey, s.sessionId)];
      if !links.sadd then
        Step(kv1, calls, Err(Upstream("failed to save user session mapping")))
      else if HoldsString(kv1, userKey) then
        Step(kv1, calls, Err(WrongType(userKey)))
      else
        var members := AddMember(MembersAt(kv1, userKey), s.sessionId);
        var ttl := if userKey in kv1 then kv1[userKey].setTtl else None;
        var kv2 := kv1[userKey := SetVal(members, ttl)];
        var calls' := calls + [KvExpire(userKey, SessionTtl)];
        if !links.expire then Step(kv2, calls', Err(Upstream("failed to expire user session mapping")))
        else Step(kv2[userKey := SetVal(members, Some(SessionTtl))], calls', Ok(()))
  }

  /** SaveSession keeps every record under its own session id. */
  lemma SaveSessionKeepsWellKeyed(kv: Kv, s: SessionData, links: SaveLinks)
    requires WellKeyed(kv)
    ensures WellKeyed(SaveSession(kv, s, links).kv)
  {
    var r := SaveSession(kv, s, links).kv;
    forall id | SessionAt(r, SessionKey(id)).Some?
      ensures SessionAt(r, SessionKey(id)).value.sessionId == id
    {
      KeysDisjoint(id, s.userId);
      if SessionKey(id) == SessionKey(s.sessionId) {
        SessionKeyInjective(id, s.sessionId);
      } else {
        assert SessionAt(r, SessionKey(id)) == SessionAt(kv, SessionKey(id));
      }
    }
  }

  /** GetSession: the stored record, or why there is none. */
  function GetSession(kv: Kv, id: string, link: bool): (r: Result<SessionData>)
    ensures r.Ok? <==> link && SessionAt(kv, SessionKey(id)).Some?
    ensures r.Ok? ==> r.value == SessionAt(kv, SessionKey(id)).value
    ensures link && SessionKey(id) !in kv ==> r == Err(SessionNotFound)
    ensures link && SessionKey(id) in kv && kv[SessionKey(id)].StrVal? && kv[SessionKey(id)].blob.NonString?
            ==> r == Err(InvalidSessionFormat)
  {
    var key := SessionKey(id);
    if !link then Err(Upstream("failed to get session"))
    else if key !in kv then Err(SessionNotFound)
    else
      match kv[key]
      case SetVal(_, _) => Err(WrongType(key))
      case StrVal(Json(s), _) => Ok(s)
      case StrVal(NonString, _) => Err(InvalidSessionFormat)
      case StrVal(Malformed, _) => Err(Undecodable("session data"))
  }

  /** The SMEMBERS reply as the REST API hands it back. */
  datatype MembersReply = NilReply | ListReply(items: seq<Value>) | NonListReply

  /** How GetUserSessions reads a reply: nothing for nil or a non-list, and
      one id per item, "" for an item that is not a string. */
  function IdsFromReply(reply: MembersReply): (ids: seq<string>)
    ensures !reply.ListReply? ==> ids == []
    ensures reply.ListReply? ==> |ids| == |reply.items|
    ensures reply.ListReply? ==> forall i :: 0 <= i < |ids| ==>
      ids[i] == (if reply.items[i].Str? then reply.items[i].s else "")
  {
    match reply
    case ListReply(items) =>
      seq(|items|, i requires 0 <= i < |items| => if items[i].Str? then items[i].s else "")
    case _ => []
  }

  /** The reply the store gives to SMEMBERS on a key that holds no string. */
  function SMembers(kv: Kv, key: string): MembersReply {
    var ms := MembersAt(kv, key);
    ListReply(seq(|ms|, i requires 0 <= i < |ms| => Str(ms[i])))
  }

  /** GetUserSessions: every id in the owner's set, whether or not its record
      still exists. */
  function GetUserSessions(kv: Kv, userId: string, link: bool): (r: Result<seq<string>>)
    ensures r.Ok? <==> link && !HoldsString(kv, UserSessionsKey(userId))
    ensures r.Ok? ==> r.value == MembersAt(kv, UserSessionsKey(userId))
  {
    var key := UserSessionsKey(userId);
    if !link then Err(Upstream("failed to get user sessions"))
    else if HoldsString(kv, key) then Err(WrongType(key))
    else Ok(IdsFromReply(SMembers(kv, key)))
  }

  /** DeleteSession: DEL of the record key only. */
  function DeleteSession(kv: Kv, id: string, link: bool): (r: Step<()>)
    ensures r.result.Ok? <==> link
    ensures link ==> SessionKey(id) !in r.kv
    ensures !link ==> r.kv == kv
    ensures r.kv - {SessionKey(id)} == kv - {SessionKey(id)}
    ensures r.calls == [KvDel(SessionKey(id))]
  {
    if link then Step(kv - {SessionKey(id)}, [KvDel(SessionKey(id))], Ok(()))
    else Step(kv, [KvDel(SessionKey(id))], Err(Upstream("failed to delete session")))
  }

  /** After DeleteSession, every per-user set still lists what it listed. */
  lemma DeleteSessionKeepsMapping(kv: Kv, id: string, link: bool, userId: string)
    ensures MembersAt(DeleteSession(kv, id, link).kv, UserSessionsKey(userId))
         == MembersAt(kv, UserSessionsKey(userId))
  {
    KeysDisjoint(id, userId);
  }

  /** UpdateSessionActivity: read the record, set LastActivity, save it back. */
  function UpdateSessionActivity(kv: Kv, id: string, now: int, getLink: bool, links: SaveLinks): (r: Step<()>)
    ensures GetSession(kv, id, getLink).Err? ==> r.kv == kv && r.result.Err?
    ensures r.result.Ok? <==>
              && GetSession(kv, id, getLink).Ok?
              && SaveSession(kv, GetSession(kv, id, getLink).value.(lastActivity := now), links).result.Ok?
    ensures GetSession(kv, id, getLink).Ok? && links.setex ==>
      var prior := GetSession(kv, id, getLink).value;
      var w := SessionAt(r.kv, SessionKey(prior.sessionId));
      && w.Some?
      && w.value.lastActivity == now
      && w.value.messages == prior.messages
      && w.value.context == prior.context
      && w.value.userId == prior.userId
      && w.value.sessionId == prior.sessionId
      && w.value.createdAt == prior.createdAt
    ensures |r.calls| > 0 && r.calls[0] == KvGet(SessionKey(id)) && AllKv(r.calls)
    ensures GetSession(kv, id, getLink).Ok? ==>
      var p := GetSession(kv, id, getLink).value;
      r.kv - {SessionKey(p.sessionId), UserSessionsKey(p.userId)} == kv - {SessionKey(p.sessionId), UserSessionsKey(p.userId)}
  {
    match GetSession(kv, id, getLink)
    case Err(e) => Step(kv, [KvGet(SessionKey(id))], Err(e))
    case Ok(s) =>
      var w := SaveSession(kv, s.(lastActivity := now), links);
      Step(w.kv, [KvGet(SessionKey(id))] + w.calls, w.result)
  }

  /** AddMessageToSession: requires an existing record; appends one message. */
  function AddMessageToSession(kv: Kv, id: string, m: Message, now: int, getLink: bool, links: SaveLinks): (r: Step<()>)
    ensures GetSession(kv, id, getLink).Err? ==> r.kv == kv && r.result.Err?
    ensures GetSession(kv, id, getLink).Ok? && links.setex ==>
      var prior := GetSession(kv, id, getLink).value;
      var w := SessionAt(r.kv, SessionKey(prior.sessionId));
      && w.Some?
      && |w.value.messages| == |prior.messages| + 1
      && w.value.messages[..|prior.messages|] == prior.messages
      && w.value.messages[|prior.messages|] == m
      && w.value.lastActivity == now
      && w.value.context == prior.context
      && w.value.userId == prior.userId
      && w.value.createdAt == prior.createdAt
    ensures r.result.Ok? <==>
      && GetSession(kv, id, getLink).Ok? && links.setex && links.sadd && links.expire
      && !HoldsString(kv, UserSessionsKey(GetSession(kv, id, getLink).value.userId))
    ensures GetSession(kv, id, getLink).Ok? ==>
      var p := GetSession(kv, id, getLink).value;
      r.kv - {SessionKey(p.sessionId), UserSessionsKey(p.userId)} == kv - {SessionKey(p.sessionId), UserSessionsKey(p.userId)}
  {
    match GetSession(kv, id, getLink)
    case Err(e) => Step(kv, [KvGet(SessionKey(id))], Err(e))
    case Ok(s) =>
      var w := SaveSession(kv, s.(messages := s.messages + [m], lastActivity := now), links);
      Step(w.kv, [KvGet(SessionKey(id))] + w.calls, w.result)
  }

  /** The context merge: every supplied key takes its new value, every other
      key keeps its prior one; a null context counts as empty. */
  function MergeContext(prior: Option<Metadata>, update: Metadata): (m: Metadata)
    ensures m.Keys == prior.GetOr(map[]).Keys + update.Keys
    ensures forall k :: k in update ==> m[k] == update[k]
    ensures forall k :: k in prior.GetOr(map[]) && k !in update ==> m[k] == prior.GetOr(map[])[k]
  {
    prior.GetOr(map[]) + update
  }

  /** SetSessionContext: requires an existing record; merges `update` into its context. */
  function SetSessionContext(kv: Kv, id: string, update: Metadata, now: int, getLink: bool, links: SaveLinks): (r: Step<()>)
    ensures GetSession(kv, id, getLink).Err? ==> r.kv == kv && r.result.Err?
    ensures GetSession(kv, id, getLink).Ok? && links.setex ==>
      var prior := GetSession(kv, id, getLink).value;
      var w := SessionAt(r.kv, SessionKey(prior.sessionId));
      && w.Some?
      && w.value.context == Some(MergeContext(prior.context, update))
      && w.value.messages == prior.messages
      && w.value.lastActivity == now
      && w.value.userId == prior.userId
      && w.value.createdAt == prior.createdAt
    ensures r.result.Ok? <==>
      && GetSession(kv, id, getLink).Ok? && links.setex && links.sadd && links.expire
      && !HoldsString(kv, UserSessionsKey(GetSession(kv, id, getLink).value.userId))
    ensures GetSession(kv, id, getLink).Ok? ==>
      var p := GetSession(kv, id, getLink).value;
      r.kv - {SessionKey(p.sessionId), UserSessionsKey(p.userId)} == kv - {SessionKey(p.sessionId), UserSessionsKey(p.userId)}
  {
    match GetSession(kv, id, getLink)
    case Err(e) => Step(kv, [KvGet(SessionKey(id))], Err(e))
    case Ok(s) =>
      var w := SaveSession(kv, s.(context := Some(MergeContext(s.context, update)), lastActivity := now), links);
      Step(w.kv, [KvGet(SessionKey(id))] + w.calls, w.result)
  }

  /** SetSessionContext followed by GetSession: every key just set reads back
      with its new value, and every older key not set reads back unchanged. */
  lemma SetContextThenGet(kv: Kv, id: string, update: Metadata, now: int)
    requires WellKeyed(kv)
    requires SessionAt(kv, SessionKey(id)).Some?
    ensures var before := SessionAt(kv, SessionKey(id)).value.context.GetOr(map[]);
      var after := GetSession(SetSessionContext(kv, id, update, now, true, AllUp).kv, id, true);
      && after.Ok?
      && after.value.context.Some?
      && (forall k :: k in update ==> k in after.value.context.value && after.value.context.value[k] == update[k])
      && (forall k :: k in before && k !in update ==>
            k in after.value.context.value && after.value.context.value[k] == before[k])
  {
    var s := SessionAt(kv, SessionKey(id)).value;
    assert s.sessionId == id;
  }
}

=== FILE: tasks.dfy ===
/** The task dispatcher adapter (clients/qstash.go): the cleanup task
    payloads it publishes or schedules, and how a dispatcher reply becomes a
    message or schedule id. The JSON encoding of a task is treated as
    lossless, so a request carries the task itself as its body. */
module Tasks {

  import opened Common

  /** The task kinds the cleanup callback understands. */
  const ExpireAll := "cleanup_expired_memories"
  const CleanupUser := "cleanup_user_memories"
  const CleanupSession := "cleanup_session"

  /** The delivery retries asked of the dispatcher for every task. */
  const Retries := 3

  /** A cleanup instruction; `userId` also carries a session id for
      cleanup_session tasks. `timestamp` is in Unix seconds. */
  datatype CleanupTask = CleanupTask(taskType: string, userId: string, timestamp: int, ttl: int)

  /** A one-shot publish: deliver `body` to `url` after `delay` seconds. */
  datatype PublishRequest = PublishRequest(url: string, body: CleanupTask, delay: int, retries: int)

  /** A recurring schedule: deliver `body` to `destination` on `cron`. */
  datatype ScheduleRequest = ScheduleRequest(destination: string, body: CleanupTask, cron: string, retries: int)

  /** The dispatcher's answer: no answer at all, or a status with the decoded
      id from the body (None when the body does not decode; an absent id field
      decodes as ""). */
  datatype Reply = Unreachable | Http(status: int, id: Option<string>)

  /** A dispatcher status counts as success iff it is 2xx. */
  predicate IsSuccess(status: int) {
    200 <= status < 300
  }

  /** The id a request obtained, or why it did not obtain one. */
  function Outcome(reply: Reply, what: string): (r: Result<string>)
    ensures r.Ok? <==> reply.Http? && IsSuccess(reply.status) && reply.id.Some?
    ensures r.Ok? ==> r.value == reply.id.value
    ensures reply.Http? && !IsSuccess(reply.status) ==> r == Err(Upstream(what))
  {
    match reply
    case Unreachable => Err(Upstream(what))
    case Http(status, id) =>
      if !IsSuccess(status) then Err(Upstream(what))
      else if id.None? then Err(Undecodable(what))
      else Ok(id.value)
  }

  /** A request handed to the dispatcher and what came back. */
  datatype Dispatched<R> = Dispatched(request: R, result: Result<string>)

  /** PublishCleanupTask: publish `task` to `url` with the given delay and three retries. */
  function PublishCleanupTask(url: string, task: CleanupTask, delay: int, reply: Reply): (r: Dispatched<PublishRequest>)
    ensures r.request.url == url && r.request.body == task && r.request.delay == delay
    ensures r.request.retries == Retries
    ensures r.result.Ok? <==> reply.Http? && IsSuccess(reply.status) && reply.id.Some?
  {
    Dispatched(PublishRequest(url, task, delay, Retries), Outcome(reply, "failed to publish cleanup task"))
  }

  /** ScheduleCleanupTask: a recurring expiry sweep on `cron`, three retries. */
  function ScheduleCleanupTask(url: string, cron: string, now: int, reply: Reply): (r: Dispatched<ScheduleRequest>)
    ensures r.request.destination == url && r.request.cron == cron
    ensures r.request.body == CleanupTask(ExpireAll, "", now, 0)
    ensures r.request.retries == Retries
    ensures r.result.Ok? <==> reply.Http? && IsSuccess(reply.status) && reply.id.Some?
  {
    Dispatched(ScheduleRequest(url, CleanupTask(ExpireAll, "", now, 0), cron, Retries),
               Outcome(reply, "failed to schedule cleanup task"))
  }

  /** PublishDelayedMemoryCleanup: an owner cleanup after `delay` seconds;
      the delay is also recorded as the task's ttl. */
  function PublishDelayedMemoryCleanup(url: string, userId: string, delay: int, now: int, reply: Reply)
    : (r: Dispatched<PublishRequest>)
    ensures r.request.body.taskType == CleanupUser && r.request.body.userId == userId
    ensures r.request.body.ttl == delay && r.request.body.timestamp == now
    ensures r.request.delay == delay && r.request.retries == Retries && r.request.url == url
  {
    PublishCleanupTask(url, CleanupTask(CleanupUser, userId, now, delay), delay, reply)
  }

  /** PublishSessionCleanup: a session cleanup after `delay` seconds, with the
      session id carried in the task's userId field. */
  function PublishSessionCleanup(url: string, sessionId: string, delay: int, now: int, reply: Reply)
    : (r: Dispatched<PublishRequest>)
    ensures r.request.body.taskType == CleanupSession && r.request.body.userId == sessionId
    ensures r.request.body.ttl == delay && r.request.delay == delay
    ensures r.request.retries == Retries && r.request.url == url
  {
    PublishCleanupTask(url, CleanupTask(CleanupSession, sessionId, now, delay), delay, reply)
  }
}

=== FILE: vector_store.dfy ===
/** The vector adapter (clients/vector.go) over an Upstash-style vector
    index. The index's nearest-neighbour ranking happens remotely: a query's
    matches, in the order the index returns them, are an input here. What the
    adapter does with them (threshold, shaping, deletion loops) is modelled. */
module VectorStore {

  import opened Common

  type Vector = seq<real>

  /** What the index holds per id. */
  datatype Entry = Entry(vector: Vector, metadata: Metadata)

  /** The index, by vector id. */
  type Index = map<string, Entry>

  /** A long-term memory as the service hands it to UpsertMemory;
      `timestamp` is in Unix seconds and `ttl` in seconds. */
  datatype MemoryEntry = MemoryEntry(
    id: string,
    userId: string,
    content: string,
    embedding: Vector,
    metadata: Metadata,
    timestamp: int,
    ttl: int)

  /** One match of a query as the index returns it; metadata may be null. */
  datatype Match = Match(id: string, score: real, metadata: Option<Metadata>)

  /** One query result. The adapter never fills `id`: the match id travels in
      metadata["id"]. `timestamp` is None when the zero time is left in place. */
  datatype MemoryResult = MemoryResult(
    id: string,
    content: string,
    score: real,
    metadata: Metadata,
    timestamp: Option<int>)

  const DefaultLimit := 10
  const UserDeleteTopK := 1000
  const SweepTopK := 10000

  /** The state after a sequence of calls, the calls issued, the outcome. */
  datatype Step<T> = Step(index: Index, calls: seq<Call>, result: Result<T>)

  /** The metadata stored with a memory: owner, content, timestamp and ttl,
      with the caller's metadata layered on top. */
  function UpsertMetadata(m: MemoryEntry): (md: Metadata)
    ensures md.Keys == m.metadata.Keys + {"user_id", "content", "timestamp", "ttl"}
    ensures forall k :: k in m.metadata ==> md[k] == m.metadata[k]
    ensures "user_id" !in m.metadata ==> md["user_id"] == Str(m.userId)
    ensures "content" !in m.metadata ==> md["content"] == Str(m.content)
    ensures "timestamp" !in m.metadata ==> md["timestamp"] == Num(m.timestamp as real)
    ensures "ttl" !in m.metadata ==> md["ttl"] == Num(m.ttl as real)
  {
    map["user_id" := Str(m.userId), "content" := Str(m.content),
        "timestamp" := Num(m.timestamp as real), "ttl" := Num(m.ttl as real)]
    + m.metadata
  }

  /** UpsertMemory: one upsert request; on success the id holds the entry. */
  function UpsertMemory(index: Index, m: MemoryEntry, link: bool): (r: Step<()>)
    ensures r.calls == [VecUpsert(m.id)]
    ensures r.result.Ok? <==> link
    ensures link ==> r.index == index[m.id := Entry(m.embedding, UpsertMetadata(m))]
    ensures !link ==> r.index == index
  {
    if link then Step(index[m.id := Entry(m.embedding, UpsertMetadata(m))], [VecUpsert(m.id)], Ok(()))
    else Step(index, [VecUpsert(m.id)], Err(Upstream("failed to upsert memory")))
  }

  /** The filter that restricts a query to one owner. */
  function UserFilter(userId: string): string {
    "user_id = '" + userId + "'"
  }

  /** The limit actually sent: 10 in place of a non-positive one. */
  function EffectiveLimit(limit: int): (n: int)
    ensures n > 0
    ensures limit > 0 ==> n == limit
    ensures limit <= 0 ==> n == DefaultLimit
  {
    if limit <= 0 then DefaultLimit else limit
  }

  /** metadata["content"] when it is a string, else "". */
  function ContentOf(md: Option<Metadata>): string {
    if md.Some? && "content" in md.value && md.value["content"].Str? then md.value["content"].s else ""
  }

  /** metadata["timestamp"] when it is a number, truncated to whole seconds. */
  function TimestampOf(md: Option<Metadata>): Option<int> {
    if md.Some? && "timestamp" in md.value && md.value["timestamp"].Num? then
      Some(Trunc(md.value["timestamp"].x))
    else None
  }

  /** One kept match as a result: its metadata (empty for null) with the match
      id added under "id", its content and timestamp read from that metadata. */
  function ToResult(m: Match): (r: MemoryResult)
    ensures r.score == m.score
    ensures r.metadata.Keys == m.metadata.GetOr(map[]).Keys + {"id"}
    ensures r.metadata["id"] == Str(m.id)
    ensures forall k :: k in m.metadata.GetOr(map[]) && k != "id" ==> r.metadata[k] == m.metadata.value[k]
    ensures m.metadata.Some? && "content" in m.metadata.value && m.metadata.value["content"].Str?
            ==> r.content == m.metadata.value["content"].s
    ensures !(m.metadata.Some? && "content" in m.metadata.value && m.metadata.value["content"].Str?)
            ==> r.content == ""
    ensures m.metadata.Some? && "timestamp" in m.metadata.value && m.metadata.value["timestamp"].Num?
            ==> r.timestamp == Some(Trunc(m.metadata.value["timestamp"].x))
    ensures !(m.metadata.Some? && "timestamp" in m.metadata.value && m.metadata.value["timestamp"].Num?)
            ==> r.timestamp == None
    ensures r.id == ""
  {
    MemoryResult("", ContentOf(m.metadata), m.score, m.metadata.GetOr(map[])["id" := Str(m.id)],
                 TimestampOf(m.metadata))
  }

  /** The adapter's loop over the matches from position `i` on: a match is
      dropped when its score is below the threshold and shaped otherwise. */
  function FilterFrom(ms: seq<Match>, minScore: real, i: nat): (rs: seq<MemoryResult>)
    requires i <= |ms|
    ensures |rs| <= |ms| - i
    ensures forall j :: 0 <= j < |rs| ==> rs[j].score >= minScore
    decreases |ms| - i
  {
    if i == |ms| then []
    else if ms[i].score < minScore then FilterFrom(ms, minScore, i + 1)
    else [ToResult(ms[i])] + FilterFrom(ms, minScore, i + 1)
  }

  /** The positions, from `i` on, of the matches the threshold keeps. */
  function KeptFrom(ms: seq<Match>, minScore: real, i: nat): seq<nat>
    requires i <= |ms|
    decreases |ms| - i
  {
    if i == |ms| then []
    else if ms[i].score >= minScore then [i] + KeptFrom(ms, minScore, i + 1)
    else KeptFrom(ms, minScore, i + 1)
  }

  /** Kept positions lie in range and increase. */
  lemma {:induction false} KeptFromIncreasing(ms: seq<Match>, minScore: real, i: nat)
    requires i <= |ms|
    ensures forall j :: 0 <= j < |KeptFrom(ms, minScore, i)| ==> i <= KeptFrom(ms, minScore, i)[j] < |ms|
    ensures forall j, k :: 0 <= j < k < |KeptFrom(ms, minScore, i)| ==>
      KeptFrom(ms, minScore, i)[j] < KeptFrom(ms, minScore, i)[k]
    decreases |ms| - i
  {
    if i < |ms| {
      KeptFromIncreasing(ms, minScore, i + 1);
      var rest := KeptFrom(ms, minScore, i + 1);
      if ms[i].score >= minScore {
        assert KeptFrom(ms, minScore, i) == [i] + rest;
      }
    }
  }

  /** A position is kept iff its score is at least the threshold. */
  lemma {:induction false} KeptFromExactly(ms: seq<Match>, minScore: real, i: nat)
    requires i <= |ms|
    ensures forall p :: i <= p < |ms| ==> (p in KeptFrom(ms, minScore, i) <==> ms[p].score >= minScore)
    decreases |ms| - i
  {
    if i < |ms| {
      KeptFromExactly(ms, minScore, i + 1);
      KeptFromIncreasing(ms, minScore, i + 1);
      var rest := KeptFrom(ms, minScore, i + 1);
      assert i !in rest;
      if ms[i].score >= minScore {
        assert KeptFrom(ms, minScore, i) == [i] + rest;
      } else {
        assert KeptFrom(ms, minScore, i) == rest;
      }
    }
  }

  /** Result j is the shaped match at the j-th kept position. */
  lemma {:induction false} FilterFollowsKept(ms: seq<Match>, minScore: real, i: nat)
    requires i <= |ms|
    ensures |KeptFrom(ms, minScore, i)| == |FilterFrom(ms, minScore, i)|
    ensures forall j :: 0 <= j < |KeptFrom(ms, minScore, i)| ==>
      0 <= KeptFrom(ms, minScore, i)[j] < |ms|
      && FilterFrom(ms, minScore, i)[j] == ToResult(ms[KeptFrom(ms, minScore, i)[j]])
    decreases |ms| - i
  {
    if i < |ms| {
      FilterFollowsKept(ms, minScore, i + 1);
      var rest := KeptFrom(ms, minScore, i + 1);
      var rs := FilterFrom(ms, minScore, i + 1);
      if ms[i].score >= minScore {
        assert KeptFrom(ms, minScore, i) == [i] + rest;
        assert FilterFrom(ms, minScore, i) == [ToResult(ms[i])] + rs;
      }
    }
  }

  /** The results are exactly the matches scoring at least the threshold, in
      the index's order: result j is the shaped match at the j-th kept
      position, kept positions increase, and a position is kept iff its score
      is at least the threshold. */
  lemma FilterIsOrderedSelection(ms: seq<Match>, minScore: real, i: nat)
    requires i <= |ms|
    ensures var idx := KeptFrom(ms, minScore, i);
      var rs := FilterFrom(ms, minScore, i);
      && |idx| == |rs|
      && (forall j :: 0 <= j < |idx| ==> i <= idx[j] < |ms| && rs[j] == ToResult(ms[idx[j]]))
      && (forall j, k :: 0 <= j < k < |idx| ==> idx[j] < idx[k])
      && (forall p :: i <= p < |ms| ==> (p in idx <==> ms[p].score >= minScore))
  {
    KeptFromIncreasing(ms, minScore, i);
    KeptFromExactly(ms, minScore, i);
    FilterFollowsKept(ms, minScore, i);
  }

  /** Distinct match ids give distinct result ids: filtering adds no duplicates. */
  lemma FilterKeepsIdsDistinct(ms: seq<Match>, minScore: real)
    requires forall p, q :: 0 <= p < q < |ms| ==> ms[p].id != ms[q].id
    ensures var rs := FilterFrom(ms, minScore, 0);
      forall j, k :: 0 <= j < k < |rs| ==>
        "id" in rs[j].metadata && "id" in rs[k].metadata && rs[j].metadata["id"] != rs[k].metadata["id"]
  {
    FilterIsOrderedSelection(ms, minScore, 0);
  }

  /** The calls a query issued (its vector's length, topK and filter) and its results. */
  datatype QueryAnswer = QueryAnswer(calls: seq<Call>, result: Result<seq<MemoryResult>>)

  /** QueryMemories: query the owner's memories and keep the matches scoring at
      least `minScore`. `reply` is the decoded list of matches, or the failure. */
  function QueryMemories(userId: string, query: Vector, limit: int, minScore: real,
                         reply: Result<seq<Match>>): (r: QueryAnswer)
    ensures r.calls == [VecQuery(|query|, EffectiveLimit(limit), Some(UserFilter(userId)))]
    ensures r.result.Ok? <==> reply.Ok?
    ensures r.result.Ok? ==> r.result.value == FilterFrom(reply.value, minScore, 0)
    ensures r.result.Ok? ==> forall j :: 0 <= j < |r.result.value| ==> r.result.value[j].score >= minScore
  {
    var call := VecQuery(|query|, EffectiveLimit(limit), Some(UserFilter(userId)));
    match reply
    case Err(e) => QueryAnswer([call], Err(Context("failed to query memories", e)))
    case Ok(ms) => QueryAnswer([call], Ok(FilterFrom(ms, minScore, 0)))
  }

  /** DeleteMemory: one delete request; an absent id is not an error. */
  function DeleteMemory(index: Index, id: string, link: bool): (r: Step<()>)
    ensures r.calls == [VecDelete(id)]
    ensures r.result.Ok? <==> link
    ensures link ==> id !in r.index && r.index - {id} == index - {id}
    ensures !link ==> r.index == index
  {
    if link then Step(index - {id}, [VecDelete(id)], Ok(()))
    else Step(index, [VecDelete(id)], Err(Upstream("failed to delete memory")))
  }

  /** Deleting an id twice, or one that is absent, succeeds and leaves the
      same index as deleting it once. */
  lemma DeleteMemoryIdempotent(index: Index, id: string)
    ensures var once := DeleteMemory(index, id, true);
      DeleteMemory(once.index, id, true) == Step(once.index, [VecDelete(id)], Ok(()))
  {
    var once := DeleteMemory(index, id, true).index;
    assert once - {id} == once;
  }

  /** The cached dimension after a GetDimensions call, the calls, the outcome. */
  datatype DimAnswer = DimAnswer(cache: int, calls: seq<Call>, result: Result<int>)

  /** GetDimensions: the cached value without a request once it is positive;
      otherwise ask for the index info, where `stats` is the decoded
      result.dimension (None when absent). A zero dimension is an error and is
      not cached. */
  function GetDimensions(cache: int, stats: Result<Option<nat>>): (r: DimAnswer)
    ensures cache > 0 ==> r == DimAnswer(cache, [], Ok(cache))
    ensures cache <= 0 ==> r.calls == [VecInfo]
    ensures r.result.Ok? ==> r.result.value > 0 && r.cache == r.result.value
    ensures r.result.Err? ==> r.cache == cache
    ensures cache <= 0 ==> (r.result.Ok? <==> stats.Ok? && stats.value.Some? && stats.value.value > 0)
  {
    if cache > 0 then DimAnswer(cache, [], Ok(cache))
    else
      match stats
      case Err(e) => DimAnswer(cache, [VecInfo], Err(Context("failed to get vector stats", e)))
      case Ok(None) => DimAnswer(cache, [VecInfo], Err(DimensionsUnknown))
      case Ok(Some(d)) =>
        if d == 0 then DimAnswer(cache, [VecInfo], Err(DimensionsUnknown)) else DimAnswer(d, [VecInfo], Ok(d))
  }

  /** Once a dimension is cached, later calls neither contact the index nor change it. */
  lemma DimensionsCached(cache: int, stats: Result<Option<nat>>, later: Result<Option<nat>>)
    requires GetDimensions(cache, stats).result.Ok?
    ensures var first := GetDimensions(cache, stats);
      GetDimensions(first.cache, later) == DimAnswer(first.cache, [], Ok(first.result.value))
  {
  }

  /** The ids of a list of matches. */
  function IdsOf(ms: seq<Match>): set<string> {
    set m | m in ms :: m.id
  }

  /** The position of the first match whose delete fails, or |ms| if none does. */
  function FirstFailing(ms: seq<Match>, failing: set<string>): (k: nat)
    ensures k <= |ms|
    ensures forall j :: 0 <= j < k ==> ms[j].id !in failing
    ensures k < |ms| ==> ms[k].id in failing
  {
    if ms == [] then 0
    else if ms[0].id in failing then 0
    else 1 + FirstFailing(ms[1..], failing)
  }

  /** The zero query vector's length: the index's dimension, or the configured
      one when the index cannot tell. */
  function ProbeLength(dims: DimAnswer, configured: int): int {
    if dims.result.Ok? then dims.result.value else configured
  }

  /** DeleteUserMemories: query up to 1000 of the owner's memories and delete
      them one by one; the first failing delete stops the loop. `failing` is
      the set of ids whose delete request fails. */
  method DeleteUserMemories(index: Index, cache: int, userId: string, configured: int,
                            stats: Result<Option<nat>>, reply: Result<seq<Match>>, failing: set<string>)
    returns (index': Index, cache': int, calls: seq<Call>, result: Result<()>)
    ensures cache' == GetDimensions(cache, stats).cache
    ensures var dims := GetDimensions(cache, stats);
      |calls| > |dims.calls|
      && calls[|dims.calls|] == VecQuery(ProbeLength(dims, configured), UserDeleteTopK, Some(UserFilter(userId)))
    ensures NoKv(calls)
    ensures reply.Err? ==> index' == index && result.Err?
    ensures reply.Ok? ==>
      var k := FirstFailing(reply.value, failing);
      && index' == index - IdsOf(reply.value[..k])
      && (result.Ok? <==> k == |reply.value|)
  {
    var dims := GetDimensions(cache, stats);
    cache' := dims.cache;
    calls := dims.calls + [VecQuery(ProbeLength(dims, configured), UserDeleteTopK, Some(UserFilter(userId)))];
    index' := index;
    if reply.Err? {
      return index', cache', calls, Err(Context("failed to query user memories for deletion", reply.error));
    }
    var ms := reply.value;
    var i := 0;
    while i < |ms|
      invariant 0 <= i <= |ms|
      invariant forall j :: 0 <= j < i ==> ms[j].id !in failing
      invariant index' == index - IdsOf(ms[..i])
      invariant |calls| > |dims.calls|
      invariant calls[|dims.calls|] == VecQuery(ProbeLength(dims, configured), UserDeleteTopK, Some(UserFilter(userId)))
      invariant NoKv(calls)
    {
      calls := calls + [VecDelete(ms[i].id)];
      if ms[i].id in failing {
        assert FirstFailing(ms, failing) == i;
        return index', cache', calls, Err(Upstream("failed to delete memory " + ms[i].id));
      }
      assert ms[..i + 1] == ms[..i] + [ms[i]];
      assert IdsOf(ms[..i + 1]) == IdsOf(ms[..i]) + {ms[i].id};
      index' := index' - {ms[i].id};
      i := i + 1;
    }
    assert ms[..i] == ms;
    result := Ok(());
  }

  /** A memory has expired when its metadata holds a numeric timestamp and a
      numeric ttl and `now` is strictly past their sum (whole seconds). */
  predicate Expired(m: Match, now: int) {
    && m.metadata.Some?
    && "timestamp" in m.metadata.value && m.metadata.value["timestamp"].Num?
    && "ttl" in m.metadata.value && m.metadata.value["ttl"].Num?
    && now > Trunc(m.metadata.value["timestamp"].x) + Trunc(m.metadata.value["ttl"].x)
  }

  /** The ids the sweep removes: expired matches whose delete succeeds. */
  function SweptIds(ms: seq<Match>, now: int, failing: set<string>): set<string> {
    set m | m in ms && Expired(m, now) && m.id !in failing :: m.id
  }

  /** DeleteExpiredMemories: query up to 10000 memories of every owner and
      delete each expired one; a failing delete is skipped and the sweep goes on. */
  method DeleteExpiredMemories(index: Index, cache: int, now: int, configured: int,
                               stats: Result<Option<nat>>, reply: Result<seq<Match>>, failing: set<string>)
    returns (index': Index, cache': int, calls: seq<Call>, result: Result<()>)
    ensures cache' == GetDimensions(cache, stats).cache
    ensures var dims := GetDimensions(cache, stats);
      |calls| > |dims.calls| && calls[|dims.calls|] == VecQuery(ProbeLength(dims, configured), SweepTopK, None)
    ensures NoKv(calls)
    ensures result.Ok? <==> reply.Ok?
    ensures reply.Err? ==> index' == index
    ensures reply.Ok? ==> index' == index - SweptIds(reply.value, now, failing)
  {
    var dims := GetDimensions(cache, stats);
    cache' := dims.cache;
    calls := dims.calls + [VecQuery(ProbeLength(dims, configured), SweepTopK, None)];
    index' := index;
    if reply.Err? {
      return index', cache', calls, Err(Context("failed to query memories for cleanup", reply.error));
    }
    var ms := reply.value;
    var i := 0;
    while i < |ms|
      invariant 0 <= i <= |ms|
      invariant index' == index - SweptIds(ms[..i], now, failing)
      invariant |calls| > |dims.calls|
      invariant calls[|dims.calls|] == VecQuery(ProbeLength(dims, configured), SweepTopK, None)
      invariant NoKv(calls)
    {
      assert ms[..i + 1] == ms[..i] + [ms[i]];
      if Expired(ms[i], now) {
        calls := calls + [VecDelete(ms[i].id)];
        if ms[i].id !in failing {
          index' := index' - {ms[i].id};
        }
      }
      assert SweptIds(ms[..i + 1], now, failing)
          == SweptIds(ms[..i], now, failing)
             + (if Expired(ms[i], now) && ms[i].id !in failing then {ms[i].id} else {});
      i := i + 1;
    }
    assert ms[..i] == ms;
    result := Ok(());
  }

  /** The sweep removes an id of a returned match iff that match has expired
      and its delete succeeds (for a reply that lists each id once). */
  lemma SweepRemovesExactlyExpired(index: Index, ms: seq<Match>, now: int, failing: set<string>, p: nat)
    requires p < |ms|
    requires ms[p].id in index
    requires forall a, b :: 0 <= a < b < |ms| ==> ms[a].id != ms[b].id
    ensures ms[p].id !in index - SweptIds(ms, now, failing) <==> Expired(ms[p], now) && ms[p].id !in failing
  {
    if Expired(ms[p], now) && ms[p].id !in failing {
      assert ms[p].id in SweptIds(ms, now, failing);
    }
  }
}

=== FILE: webhook.dfy ===
/** The cleanup callback and scheduling endpoints (handlers/webhook.go): how a
    delivered cleanup task is dispatched to the service, and how scheduling
    requests become dispatcher requests. JSON binding is modelled by an
    optional decoded body: None when the body does not bind. */
module Webhook {

  import opened Common
  import Tasks
  import M = Memory
  import S = SessionStore
  import V = VectorStore

  /** What an endpoint answers. */
  datatype Response =
    | Completed(taskType: string, timestamp: int)
    | CleanupScheduled(scheduleId: string, callbackUrl: string)
    | UserCleanupScheduled(messageId: string, userId: string, delaySeconds: int)
    | BadRequest(reason: string)
    | ServerError(reason: string)

  /** The HTTP status of a response. */
  function Status(r: Response): (code: int)
    ensures code == 200 <==> r.Completed? || r.CleanupScheduled? || r.UserCleanupScheduled?
    ensures code == 400 <==> r.BadRequest?
    ensures code == 500 <==> r.ServerError?
  {
    match r
    case BadRequest(_) => 400
    case ServerError(_) => 500
    case _ => 200
  }

  /** The task kinds a callback understands. */
  predicate Known(taskType: string) {
    taskType == Tasks.ExpireAll || taskType == Tasks.CleanupUser || taskType == Tasks.CleanupSession
  }

  /** The outcome of every remote call a callback may make. */
  datatype CallbackRemote = CallbackRemote(vector: M.VectorRemote, membersLink: bool, failingKeys: set<string>,
                                           delLink: bool)

  /** HandleCleanupWebhook: run the task the body names and echo its type and
      timestamp; a body that does not bind, an unknown type, or a user or
      session task without an id is a bad request with no effect. */
  method HandleCleanupWebhook(svc: M.Service, st: M.Stores, now: int, body: Option<Tasks.CleanupTask>,
                              remote: CallbackRemote)
    returns (st': M.Stores, calls: seq<Call>, resp: Response)
    ensures resp.BadRequest? <==>
      || body.None?
      || !Known(body.value.taskType)
      || (body.value.taskType != Tasks.ExpireAll && body.value.userId == "")
    ensures resp.BadRequest? ==> st' == st && calls == []
    ensures resp.Completed? ==>
      body.Some? && resp.taskType == body.value.taskType && resp.timestamp == body.value.timestamp
    ensures !resp.BadRequest? ==> resp.Completed? || resp.ServerError?
    // the expiry sweep touches only the vector index
    ensures body.Some? && body.value.taskType == Tasks.ExpireAll ==>
      && st'.kv == st.kv && NoKv(calls)
      && (resp.Completed? <==> remote.vector.reply.Ok?)
      && (remote.vector.reply.Ok? ==> st'.index == st.index - V.SweptIds(remote.vector.reply.value, now, remote.vector.failing))
      && (remote.vector.reply.Err? ==> st'.index == st.index)
    // a session task deletes that session's record and nothing else
    ensures body.Some? && body.value.taskType == Tasks.CleanupSession && body.value.userId != "" ==>
      && st'.index == st.index
      && calls == [KvDel(S.SessionKey(body.value.userId))]
      && st'.kv - {S.SessionKey(body.value.userId)} == st.kv - {S.SessionKey(body.value.userId)}
      && (resp.Completed? <==> remote.delLink)
      && (remote.delLink ==> S.SessionKey(body.value.userId) !in st'.kv)
      && (!remote.delLink ==> st' == st)
    // a user task deletes the owner's memories first, then the owner's sessions
    ensures body.Some? && body.value.taskType == Tasks.CleanupUser && body.value.userId != "" ==>
      && (remote.vector.reply.Err? ==> st'.index == st.index && st'.kv == st.kv && NoKv(calls))
      && (remote.vector.reply.Ok? ==>
            st'.index == st.index
                         - V.IdsOf(remote.vector.reply.value[..V.FirstFailing(remote.vector.reply.value, remote.vector.failing)]))
      && (remote.vector.reply.Ok? && !M.VectorStepDone(remote.vector) ==> st'.kv == st.kv && NoKv(calls))
      && (M.VectorStepDone(remote.vector) ==>
            var tail := M.SessionCleanupCalls(st.kv, body.value.userId, remote.membersLink);
            |calls| >= |tail| && calls[|calls| - |tail|..] == tail && NoKv(calls[..|calls| - |tail|]))
      && (resp.Completed? <==>
            M.VectorStepDone(remote.vector) && S.GetUserSessions(st.kv, body.value.userId, remote.membersLink).Ok?)
      && (resp.Completed? ==>
            st'.kv == st.kv - M.DeletedKeys(S.MembersAt(st.kv, S.UserSessionsKey(body.value.userId)), remote.failingKeys))
  {
    calls := [];
    if body.None? {
      return st, calls, BadRequest("Invalid task format");
    }
    var task := body.value;
    var result: Result<()>;
    if task.taskType == Tasks.ExpireAll {
      st', calls, result := M.CleanupExpiredMemories(svc, st, now, remote.vector);
      if result.Err? {
        return st', calls, ServerError("Failed to cleanup expired memories");
      }
    } else if task.taskType == Tasks.CleanupUser {
      if task.userId == "" {
        return st, calls, BadRequest("User ID is required for user memory cleanup");
      }
      st', calls, result := M.CleanupUserMemories(svc, st, task.userId, remote.vector, remote.membersLink,
                                                  remote.failingKeys);
      if result.Err? {
        return st', calls, ServerError("Failed to cleanup user memories");
      }
    } else if task.taskType == Tasks.CleanupSession {
      if task.userId == "" {
        return st, calls, BadRequest("Session ID is required for session cleanup");
      }
      var d := M.DeleteSession(st, task.userId, false, true, remote.delLink);
      st', calls := d.stores, d.calls;
      if d.result.Err? {
        return st', calls, ServerError("Failed to cleanup session");
      }
    } else {
      return st, calls, BadRequest("Unknown task type: " + task.taskType);
    }
    resp := Completed(task.taskType, task.timestamp);
  }

  /** A session cleanup published for a non-empty session id and delivered
      back to the callback deletes exactly that session's record. */
  method PublishThenDeliverSessionCleanup(svc: M.Service, st: M.Stores, url: string, sessionId: string,
                                          delay: int, now: int, reply: Tasks.Reply, remote: CallbackRemote)
    returns (st': M.Stores, resp: Response)
    requires sessionId != ""
    ensures resp.Completed? <==> remote.delLink
    ensures resp.Completed? ==> resp.taskType == Tasks.CleanupSession && st'.kv == st.kv - {S.SessionKey(sessionId)}
    ensures !resp.Completed? ==> st' == st && resp.ServerError?
    ensures st'.index == st.index
  {
    var published := Tasks.PublishSessionCleanup(url, sessionId, delay, now, reply);
    var calls;
    st', calls, resp := HandleCleanupWebhook(svc, st, now, Some(published.request.body), remote);
  }

  /** An owner cleanup requested through the schedule-user-cleanup endpoint
      and delivered back to the callback removes the owner's listed memories
      and that user's sessions, and no other session. */
  method PublishThenDeliverUserCleanup(svc: M.Service, st: M.Stores, url: string, userId: string,
                                       delaySeconds: int, now: int, reply: Tasks.Reply, remote: CallbackRemote)
    returns (st': M.Stores, resp: Response)
    requires url != "" && userId != ""
    ensures resp.Completed? ==> resp.taskType == Tasks.CleanupUser && resp.timestamp == now
    ensures resp.Completed? ==>
      forall id :: S.SessionKey(id) in st.kv && S.SessionKey(id) !in remote.failingKeys ==>
        (S.SessionKey(id) in st'.kv <==> id !in S.MembersAt(st.kv, S.UserSessionsKey(userId)))
    // once completed, none of the owner's memories the index listed remains
    ensures resp.Completed? ==>
      && remote.vector.reply.Ok?
      && forall id :: !M.OwnedBy(st'.index, id, userId) || id !in V.IdsOf(remote.vector.reply.value)
    ensures !resp.BadRequest?
  {
    var scheduled := ScheduleUserCleanup(Some(ScheduleUserBody(url, userId, delaySeconds)), now, reply);
    var calls;
    st', calls, resp := HandleCleanupWebhook(svc, st, now, Some(scheduled.request.value.body), remote);
    if resp.Completed? {
      forall id | S.SessionKey(id) in st.kv && S.SessionKey(id) !in remote.failingKeys
        ensures S.SessionKey(id) in st'.kv <==> id !in S.MembersAt(st.kv, S.UserSessionsKey(userId))
      {
        forall id' | S.SessionKey(id') == S.SessionKey(id)
          ensures id' == id
        {
          S.SessionKeyInjective(id', id);
        }
      }
    }
  }

  /** The daily sweep scheduled through the endpoint and delivered back to
      the callback leaves every session alone and removes exactly the swept
      memories. */
  method ScheduleThenDeliverExpireAll(svc: M.Service, st: M.Stores, url: string, now: int, reply: Tasks.Reply,
                                      delivered: int, remote: CallbackRemote)
    returns (st': M.Stores, resp: Response)
    requires url != ""
    ensures resp.Completed? <==> remote.vector.reply.Ok?
    ensures resp.Completed? ==> resp.taskType == Tasks.ExpireAll && resp.timestamp == now
    ensures !resp.Completed? ==> resp.ServerError?
    ensures st'.kv == st.kv
    ensures remote.vector.reply.Ok? ==>
      st'.index == st.index - V.SweptIds(remote.vector.reply.value, delivered, remote.vector.failing)
  {
    var scheduled := ScheduleCleanup(Some(ScheduleBody(url)), now, reply);
    var calls;
    st', calls, resp := HandleCleanupWebhook(svc, st, delivered, Some(scheduled.request.value.body), remote);
  }

  /** A scheduling endpoint's answer, with the dispatcher request it made
      (None when the request was refused before reaching the dispatcher). */
  datatype Scheduled<R> = Scheduled(request: Option<R>, response: Response)

  /** The body of a schedule-cleanup request. */
  datatype ScheduleBody = ScheduleBody(callbackUrl: string)

  /** ScheduleCleanup: the daily sweep toward the given callback; a missing
      or empty callback is a bad request and nothing is scheduled. */
  function ScheduleCleanup(body: Option<ScheduleBody>, now: int, reply: Tasks.Reply)
    : (r: Scheduled<Tasks.ScheduleRequest>)
    ensures r.response.BadRequest? <==> body.None? || body.value.callbackUrl == ""
    ensures r.response.BadRequest? ==> r.request.None?
    ensures !r.response.BadRequest? ==>
      && r.request.Some? && r.request.value.destination == body.value.callbackUrl
      && r.request.value.cron == M.DailyCleanupCron && r.request.value.body == Tasks.CleanupTask(Tasks.ExpireAll, "", now, 0)
    ensures r.response.CleanupScheduled? <==>
      !r.response.BadRequest? && reply.Http? && Tasks.IsSuccess(reply.status) && reply.id.Some?
    ensures r.response.CleanupScheduled? ==> r.response.scheduleId == reply.id.value && r.response.callbackUrl == body.value.callbackUrl
  {
    if body.None? || body.value.callbackUrl == "" then Scheduled(None, BadRequest("Invalid request format"))
    else
      var d := M.ScheduleCleanup(body.value.callbackUrl, now, reply);
      Scheduled(Some(d.request),
       match d.result
       case Ok(id) => CleanupScheduled(id, body.value.callbackUrl)
       case Err(_) => ServerError("Failed to schedule cleanup"))
  }

  /** The body of a schedule-user-cleanup request. */
  datatype ScheduleUserBody = ScheduleUserBody(callbackUrl: string, userId: string, delaySeconds: int)

  /** The delay a user cleanup is scheduled with: one hour unless positive. */
  function EffectiveDelay(delaySeconds: int): (d: int)
    ensures d > 0
    ensures delaySeconds > 0 ==> d == delaySeconds
    ensures delaySeconds <= 0 ==> d == 3600
  {
    if delaySeconds <= 0 then 3600 else delaySeconds
  }

  /** ScheduleUserCleanup: a one-shot owner cleanup after the effective delay;
      a missing or empty callback or user id is a bad request. */
  function ScheduleUserCleanup(body: Option<ScheduleUserBody>, now: int, reply: Tasks.Reply)
    : (r: Scheduled<Tasks.PublishRequest>)
    ensures r.response.BadRequest? <==> body.None? || body.value.callbackUrl == "" || body.value.userId == ""
    ensures r.response.BadRequest? ==> r.request.None?
    ensures !r.response.BadRequest? ==>
      && r.request.Some? && r.request.value.url == body.value.callbackUrl
      && r.request.value.body == Tasks.CleanupTask(Tasks.CleanupUser, body.value.userId, now, EffectiveDelay(body.value.delaySeconds))
      && r.request.value.delay == EffectiveDelay(body.value.delaySeconds) && r.request.value.delay > 0
    ensures r.response.UserCleanupScheduled? <==>
      !r.response.BadRequest? && reply.Http? && Tasks.IsSuccess(reply.status) && reply.id.Some?
    ensures r.response.UserCleanupScheduled? ==>
      && r.response.messageId == reply.id.value && r.response.userId == body.value.userId
      && r.response.delaySeconds == EffectiveDelay(body.value.delaySeconds)
  {
    if body.None? || body.value.callbackUrl == "" || body.value.userId == "" then
      Scheduled(None, BadRequest("Invalid request format"))
    else
      var delay := EffectiveDelay(body.value.delaySeconds);
      var d := M.ScheduleDelayedUserCleanup(body.value.callbackUrl, body.value.userId, delay, now, reply);
      Scheduled(Some(d.request),
       match d.result
       case Ok(id) => UserCleanupScheduled(id, body.value.userId, delay)
       case Err(_) => ServerError("Failed to schedule user cleanup"))
  }
}
